=== FILE: README.md ===
# Duplicate-report detection and list logic of a civic issue-reporting app

This project models, in Dafny, the part of the civic issue-reporting app that
carries real logic:

- **The duplicate-report detector** (`supabase/functions/detect-duplicates/index.ts`).
  For one incoming report it fetches a window of candidate reports: same
  category, not flagged duplicate, created in the last 30 days, newest first,
  at most 20. It scores each candidate as 0.6 × keyword overlap plus a
  location term. The location term is 0.4 × max(0, 1 − km) with coordinates
  on both sides, else 0.3 × a case-insensitive name match. It keeps the first
  strictly highest score and lets a classifier raise an ambiguous score.
  Above 0.6 the report is a duplicate, and the matched report gets one more
  vote.
- **The case filter** of the Active Cases page (`src/pages/ActiveCases.tsx`).
- **The offline report queue** (`src/components/MobileOffline.tsx`), with its
  sync pass and its "clear synced" operation.
- **The attachment list and urgency lookup** of the Report Issue form
  (`src/pages/ReportIssue.tsx`).

Modules: `Options` (an option type), `Numbers` (`Min` and `Math.max`),
`Text` (lower-casing, JavaScript `\s` splitting, `includes`), `Reports`
(report rows and the candidate-window query), `Scoring` (tokens, word
overlap, location term, best-match scan), `Decision` (classifier step,
threshold, rounding), `Detector` (the report store and the whole request),
`ActiveCases`, `MobileOffline`, `ReportIssue`.

Numbers are mathematical reals. The one special IEEE value the scoring can
produce is the NaN of `0 / 0`, and it is kept as its own case of
`Scoring.Score`. Binary rounding is not modelled (see the line on
floating point under "## Left out"). The environment enters as parameters:
the clock, the haversine distance, the classifier key and reply, a failing
candidate query and a failing vote update. For the offline queue, a throwing
sync step is a parameter too.

Behaviour of the detector that the model keeps as the code has it:
- Two reports with no word longer than 3 characters divide 0 by 0 and get a
  NaN text similarity (`index.ts:97`). A NaN score never wins the `>`
  comparison of `index.ts:116`, so such a candidate never becomes the best
  match (`Scoring.TextSimilarity`, `Scoring.Similarity`).
- A candidate with the same title, description and position as the report
  scores exactly 1 only when the text has a word longer than 3 characters and
  both sides have truthy coordinates (`Detector.IdenticalCandidateIsDuplicate`).
  Without coordinates on one side, it scores 0.6 + 0.3 = 0.9 by its location
  name. It is still a duplicate, with confidence at least 0.9
  (`Detector.IdenticalNameModeIsDuplicate`).
- A latitude or longitude of exactly 0 is falsy, so it counts as missing
  (`index.ts:101`). Such a report is scored by location name
  (`Scoring.ZeroCoordinateUsesName`).
- `is_duplicate` and `upvotes` are nullable columns
  (`src/integrations/supabase/types.ts:273`, `:285`). `eq('is_duplicate', false)`
  leaves out rows whose flag is NULL (`Reports.Eligible`). The vote write
  computes `upvotes + 1` in JavaScript, which gives 1 for a NULL count
  (`Detector.VotesPlusOne`), and the response shows the fetched count, NULL
  included.

## Model

| member | source | states |
|---|---|---|
| `Text.Lower` | supabase/functions/detect-duplicates/index.ts:84-85 | lower-casing keeps the length and maps each character on its own (ASCII letters folded, all else kept) |
| `Text.Words` | supabase/functions/detect-duplicates/index.ts:87-88 | the non-empty pieces of `split(/\s+/)`: every word is non-empty and free of whitespace, and the words joined together are the text with its whitespace removed |
| `Text.WordsAroundSpace` | supabase/functions/detect-duplicates/index.ts:87-88 | a whitespace character splits: the words of `a + [c] + b` are the words of `a` followed by the words of `b` |
| `Text.WordsOfRun` | supabase/functions/detect-duplicates/index.ts:87-88 | a non-empty run of non-whitespace characters is exactly one word |
| `Text.WordsDetermined` | supabase/functions/detect-duplicates/index.ts:87-88 | any splitting that gives no words for the empty text, one word per run and splits at every whitespace character is `Words`: the two lemmas above fix the words of every text |
| `Text.ContainsIffOccurs` | src/pages/ActiveCases.tsx:102-103 | `includes` holds iff the needle occurs at some offset of the haystack |
| `Text.Contains` | src/pages/ActiveCases.tsx:102-103 | a needle that starts the haystack is found, and a needle longer than the haystack is never found |
| `Reports.FilterEligible` | supabase/functions/detect-duplicates/index.ts:40-42 | keeps exactly the rows with the category, `is_duplicate` false (not NULL), created no earlier than now − 30 days |
| `Reports.InsertNewestFirst` | supabase/functions/detect-duplicates/index.ts:43 | inserting adds exactly one row (multiset) |
| `Reports.InsertKeepsNewestFirst` | supabase/functions/detect-duplicates/index.ts:43 | inserting into a newest-first list keeps it newest first |
| `Reports.SortNewestFirst` | supabase/functions/detect-duplicates/index.ts:43 | the ordering is descending by `created_at` and a permutation of its input |
| `Reports.RecentWindow` | supabase/functions/detect-duplicates/index.ts:37-44 | the window is newest first and holds min(20, number of eligible rows) rows |
| `Reports.WindowShape` | supabase/functions/detect-duplicates/index.ts:37-44 | every candidate is a stored, eligible row; the window is newest first and has min(20, eligible) rows |
| `Reports.WindowIsNewest` | supabase/functions/detect-duplicates/index.ts:42-44 | an eligible row left out of the window is no newer than any row in it |
| `Scoring.LongWords` | supabase/functions/detect-duplicates/index.ts:87-88 | keeps exactly the words longer than 3 characters |
| `Scoring.LongWordsCount` | supabase/functions/detect-duplicates/index.ts:87-88 | every word longer than 3 characters is kept as often as it occurs, every other word is dropped |
| `Scoring.LongWordsAppend` | supabase/functions/detect-duplicates/index.ts:87-88 | the filter keeps the order of the words: it distributes over concatenation |
| `Scoring.Tokens` | supabase/functions/detect-duplicates/index.ts:84-88 | an empty text has no tokens; every token is longer than 3 characters and free of whitespace |
| `Scoring.TokensOfWord` | supabase/functions/detect-duplicates/index.ts:84-88 | a single run of non-whitespace characters yields its lower-cased form as its only token when longer than 3, and no token otherwise |
| `Scoring.TokensAroundSpace` | supabase/functions/detect-duplicates/index.ts:84-88 | a whitespace character separates tokens: the tokens of `a + [c] + b` are those of `a` followed by those of `b` |
| `Scoring.ReportTokens` | supabase/functions/detect-duplicates/index.ts:84-88 | the tokens of `${title} ${description}` are the title's tokens followed by the description's |
| `Scoring.CommonCount` | supabase/functions/detect-duplicates/index.ts:90-95 | the number of shared words is at most the new report's word count |
| `Scoring.CommonCountAll` | supabase/functions/detect-duplicates/index.ts:90-95 | every new word counts iff every new word occurs in the candidate's list |
| `Scoring.CommonCountNone` | supabase/functions/detect-duplicates/index.ts:90-95 | the count is 0 iff no new word occurs in the candidate's list |
| `Scoring.CountCommonWords` | supabase/functions/detect-duplicates/index.ts:90-95 | the counting loop computes `CommonCount`, each occurrence counted once |
| `Scoring.TextSimilarity` | supabase/functions/detect-duplicates/index.ts:97 | NaN iff both token lists are empty; otherwise the ratio lies in [0, 1] |
| `Scoring.TextSimilaritySelf` | supabase/functions/detect-duplicates/index.ts:97 | identical non-empty token lists have similarity 1 |
| `Scoring.TextSimilarityDisjoint` | supabase/functions/detect-duplicates/index.ts:97 | lists with no shared word, not both empty, have similarity 0 |
| `Scoring.LocationSimilarity` | supabase/functions/detect-duplicates/index.ts:108 | lies in [0, 1]; equals 1 iff the distance is 0, equals 0 iff the distance is at least 1 km, else 1 − d |
| `Scoring.LocationSimilarityAntitone` | supabase/functions/detect-duplicates/index.ts:108 | location similarity never grows with distance |
| `Scoring.LocationTerm` | supabase/functions/detect-duplicates/index.ts:100-114 | with truthy coordinates on both sides the term lies in [0, 0.4]; otherwise it is 0.3 iff the lower-cased names are equal, else 0 |
| `Scoring.ZeroCoordinateUsesName` | supabase/functions/detect-duplicates/index.ts:101-113 | a latitude or longitude of exactly 0 is falsy: the location term is then 0.3 or 0 by the lower-cased names |
| `Scoring.Similarity` | supabase/functions/detect-duplicates/index.ts:81-114 | a composite score is NaN iff neither text has a long word, else it lies in [0, 1], and in [0, 0.9] in name mode |
| `Scoring.IdenticalScoresOne` | supabase/functions/detect-duplicates/index.ts:84-109 | same text (with a long word) and same position at distance 0 score exactly 1 |
| `Scoring.DisjointSameNameScoresNameWeight` | supabase/functions/detect-duplicates/index.ts:97-113 | disjoint texts with equal names in name mode score exactly 0.3 |
| `Scoring.ScoreCandidate` | supabase/functions/detect-duplicates/index.ts:81-114 | scoring one candidate with the counting loop yields `Similarity` |
| `Scoring.ScoreWords` | supabase/functions/detect-duplicates/index.ts:90-98 | the counting loop and the ratio yield the weighted text similarity of `TextSimilarity`, NaN when both lists are empty |
| `Scoring.BestOf` | supabase/functions/detect-duplicates/index.ts:77-78 | the highest score lies in [0, 1]; with a best match it is > 0 and is that candidate's score; without one it stays 0 |
| `Scoring.BestOfIsMaximal` | supabase/functions/detect-duplicates/index.ts:116-119 | no candidate scores above the reported highest |
| `Scoring.BestOfIsFirst` | supabase/functions/detect-duplicates/index.ts:116-119 | ties keep the earlier (newer) candidate: all earlier candidates score strictly less or NaN |
| `Scoring.BestOfNone` | supabase/functions/detect-duplicates/index.ts:77-78 | the best match stays null iff no candidate scores above 0 |
| `Scoring.FindBestMatch` | supabase/functions/detect-duplicates/index.ts:77-120 | the scoring loop returns the scan's best match and highest score |
| `Decision.ApplyReply` | supabase/functions/detect-duplicates/index.ts:167-169 | a reply never lowers the score; it changes it only when it says duplicate with confidence > 0.7, and then to that confidence |
| `Decision.ShouldConsult` | supabase/functions/detect-duplicates/index.ts:124 | the classifier is never asked at or below 0.3, at or above 0.8, without a key or without a best match |
| `Decision.FinalConfidence` | supabase/functions/detect-duplicates/index.ts:124-169 | the final score is at least the heuristic one; it is unchanged without a key, outside (0.3, 0.8), without a best match or without a reply; a consulted "duplicate" reply with confidence above 0.7 raises it to the larger of the score and that confidence |
| `Decision.ConsultBoundaries` | supabase/functions/detect-duplicates/index.ts:124 | of 0.29, 0.3, 0.31, 0.79, 0.8, 0.81 only 0.31 and 0.79 reach the classifier, and only with a key |
| `Decision.RoundHalfUp` | supabase/functions/detect-duplicates/index.ts:201 | `Math.round` is within half a unit of its argument, halves rounded up |
| `Decision.RoundToCents` | supabase/functions/detect-duplicates/index.ts:201 | the confidence is within 0.005 of the score, has two decimals, and stays in [0, 1] |
| `Decision.RoundToCentsMonotone` | supabase/functions/detect-duplicates/index.ts:201 | rounding to two decimals never reverses the order of two scores |
| `Decision.AnalysisOf` | supabase/functions/detect-duplicates/index.ts:202 | the classifier's reasoning iff it was consulted, answered and gave a non-empty one; otherwise the rounded percentage |
| `Detector.Detection` | supabase/functions/detect-duplicates/index.ts:53-62 | an empty window answers not-duplicate, parent null, confidence 0, with no write; a write only follows a duplicate verdict |
| `Detector.DetectionVerdict` | supabase/functions/detect-duplicates/index.ts:176-177 | duplicate iff final score > 0.6; a duplicate has a best match whose id is the parent, otherwise the parent is null; confidence is the rounded final score |
| `Detector.MergeIffDuplicate` | supabase/functions/detect-duplicates/index.ts:182-189 | a vote is written iff the verdict is duplicate (with a non-empty parent id), and the value is the matched report's fetched votes + 1, a NULL count counting as 0 |
| `Detector.ConfidenceInUnitRange` | supabase/functions/detect-duplicates/index.ts:201 | with classifier confidences at most 1 the reported confidence lies in [0, 1] |
| `Detector.IdenticalCandidateIsDuplicate` | supabase/functions/detect-duplicates/index.ts:80-176 | a candidate identical to the report makes it a duplicate with confidence 1, whatever the classifier says |
| `Detector.TopScoreIsDuplicate` | supabase/functions/detect-duplicates/index.ts:116-176 | a window where some candidate scores 1 yields a duplicate with confidence 1 |
| `Detector.ClassifierConfirmsDuplicate` | supabase/functions/detect-duplicates/index.ts:124-201 | a best score in (0.3, 0.8) with a key and a "duplicate" reply above 0.7 makes the report a duplicate of the best match, with confidence the rounded larger of score and reply |
| `Detector.HighScoreIsDuplicate` | supabase/functions/detect-duplicates/index.ts:116-201 | a candidate scoring at least 0.8 makes the report a duplicate whatever the classifier says, with confidence at least that score rounded |
| `Detector.IdenticalNameModeIsDuplicate` | supabase/functions/detect-duplicates/index.ts:80-201 | a candidate with the same title, description and location name, without truthy coordinates on both sides, makes the report a duplicate with confidence at least 0.9 |
| `Detector.NameOnlyMatchIsNotDuplicate` | supabase/functions/detect-duplicates/index.ts:97-176 | one disjoint-text candidate with the same location name scores 0.3 and is not a duplicate |
| `Detector.SingleScoreBelowBand` | supabase/functions/detect-duplicates/index.ts:124-176 | a lone score of 0.3 does not reach the classifier and is not a duplicate |
| `Detector.WithVotes` | supabase/functions/detect-duplicates/index.ts:183-189 | the update changes only rows with the given id, sets their votes and `updated_at`, and keeps ids unique |
| `Detector.ReportStore.Query` | supabase/functions/detect-duplicates/index.ts:37-44 | the query returns at most 20 stored, eligible rows, newest first |
| `Detector.ReportStore.UpdateVotes` | supabase/functions/detect-duplicates/index.ts:183-189 | the store after the update is `WithVotes` of the store before |
| `Detector.Detect` | supabase/functions/detect-duplicates/index.ts:28-226 | a failed query gives the error response and no write; otherwise the response is `Detection` of the window and its scores, a failed update leaves the store alone without changing the response, and the only row that can change is the parent's, to its votes + 1 (1 for a NULL count) |
| `Detector.DecideAndMerge` | supabase/functions/detect-duplicates/index.ts:122-210 | the steps after the scoring loop produce `Detection`'s response and at most its one write |
| `Detector.MergeWritesParentOnly` | supabase/functions/detect-duplicates/index.ts:182-189 | the write touches only the parent report's row, setting its stored votes + 1 and `updated_at` |
| `Detector.MatchedRowIsStored` | supabase/functions/detect-duplicates/index.ts:186 | the fetched candidate is the stored row with its id |
| `Detector.VotesPlusOne` | supabase/functions/detect-duplicates/index.ts:186 | `upvotes + 1` gives 1 for a NULL count and the count plus one otherwise |
| `ActiveCases.FilteredCases` | src/pages/ActiveCases.tsx:100-108 | a case is shown iff it passes the search, category and status tests; the list is no longer than the input |
| `ActiveCases.FilteredIsSubsequence` | src/pages/ActiveCases.tsx:100 | the shown cases keep their original order |
| `ActiveCases.NoFilterKeepsAll` | src/pages/ActiveCases.tsx:101-105 | an empty search with category and status "all" shows every case |
| `ActiveCases.SearchMatchesSubstring` | src/pages/ActiveCases.tsx:101-103 | a non-empty term matches iff its lower-cased form occurs in the lower-cased title or location; the description does not matter |
| `ActiveCases.MatchesSearch` | src/pages/ActiveCases.tsx:101-103 | an empty term matches every case; a term longer than both the title and the location never matches |
| `ActiveCases.KeepNarrows` | src/pages/ActiveCases.tsx:101-107 | each test only narrows the list: a shown case stays shown with an empty term, and with either selector back on "all" |
| `MobileOffline.WithStatus` | src/components/MobileOffline.tsx:85-87 | one sync step changes only the status of the reports with the id and keeps every other report and field |
| `MobileOffline.StepResult` | src/components/MobileOffline.tsx:85-93 | one loop iteration marks the report with the id synced, or failed when the step throws, and keeps every other report |
| `MobileOffline.PendingOf` | src/components/MobileOffline.tsx:72 | keeps exactly the pending reports |
| `MobileOffline.PendingAppend` | src/components/MobileOffline.tsx:72 | the pending reports keep their order: the filter distributes over concatenation |
| `MobileOffline.PendingEndsWithLast` | src/components/MobileOffline.tsx:72-80 | the last entry of the pending list is the last pending report: with `x` pending and nothing pending after it, the pending list of `a + [x] + b` is that of `a` followed by `x` |
| `MobileOffline.Unsynced` | src/components/MobileOffline.tsx:102 | keeps exactly the reports that are not synced (pending and failed) |
| `MobileOffline.UnsyncedAppend` | src/components/MobileOffline.tsx:102 | clearing distributes over concatenation, so the original order is kept |
| `MobileOffline.UnsyncedCount` | src/components/MobileOffline.tsx:101-103 | clearing is idempotent and removes exactly the synced reports |
| `MobileOffline.SyncedList` | src/components/MobileOffline.tsx:72-88 | with no pending report the list is unchanged |
| `MobileOffline.WithStatusAbsent` | src/components/MobileOffline.tsx:85-87 | marking an id that is not in the list changes nothing |
| `MobileOffline.MarkOnePending` | src/components/MobileOffline.tsx:85-88 | with unique ids, one step lowers the number of pending reports by exactly one |
| `MobileOffline.SyncLeavesOthersPending` | src/components/MobileOffline.tsx:72-95 | after a sync over n pending reports, n − 1 are still pending; the last pending report ends synced, or failed when its step throws, and no other report changed |
| `MobileOffline.OfflineQueue.Save` | src/components/MobileOffline.tsx:59-66 | a save sets both the state and local storage to the given list |
| `MobileOffline.OfflineQueue.Sync` | src/components/MobileOffline.tsx:68-99 | offline or already syncing: nothing changes; otherwise the saved list is `SyncedList` of the captured list and the syncing flag ends false |
| `MobileOffline.OfflineQueue.ClearSynced` | src/components/MobileOffline.tsx:101-105 | the saved list is the list without its synced reports |
| `ReportIssue.AppendCapped` | src/pages/ReportIssue.tsx:79 | the new selection is the old files followed by the new ones, cut to its first min(5, old + new) entries |
| `ReportIssue.AppendCappedKeepsPrefix` | src/pages/ReportIssue.tsx:79 | old files keep their positions, new files follow them, and with 5 files already selected nothing changes |
| `ReportIssue.WithoutIndex` | src/pages/ReportIssue.tsx:83 | removing never lengthens the list |
| `ReportIssue.WithoutIndexSpec` | src/pages/ReportIssue.tsx:82-84 | an index in range removes exactly that element, keeping the others in order; any other index changes nothing |
| `ReportIssue.FindLevel` | src/pages/ReportIssue.tsx:102 | finds the first level with the value, and none iff no level has it |
| `ReportIssue.UrgencyConfig` | src/pages/ReportIssue.tsx:44-49 | a known level gives its own entry; any other value gives the "medium" entry at index 1 |
| `ReportIssue.FileSelection.HandleFileUpload` | src/pages/ReportIssue.tsx:77-80 | the selection becomes `AppendCapped` of the old one and the picked files (none when null), keeping at most 5 |
| `ReportIssue.FileSelection.RemoveFile` | src/pages/ReportIssue.tsx:82-84 | the selection loses exactly the element at the index, or is unchanged for an index out of range |

## Left out

- The haversine `calculateDistance` (`index.ts:65-74`) works on floating-point trigonometry. It is a caller-supplied function `Scoring.Distance` whose result is a non-negative real.
- The classifier call (`index.ts:126-165`) is a network call with a prompt and a JSON reply. Its outcome is an input `Option<ClassifierReply>`: `None` covers a reply that is not OK, malformed JSON and a thrown error. Reply fields of the wrong JSON type are not modelled.
- Transport and setup are not modelled: `serve`, the OPTIONS/CORS answer, `req.json()`, the database client, `Deno.env` and logging. Errors thrown other than by the candidate query are left out too. Only the query's failure is modelled, as `fetchError`.
- `Date.now()` and `new Date()` are the parameter `now`. The update's `updated_at` uses the same clock value as the query's cutoff.
- IEEE-754 binary rounding of the weights and sums is not modelled: the arithmetic is on reals, and `Math.round` is floor(x + 0.5) of the exact value. This can change the reported confidence at a half cent. With 3 of 8 long words shared and equal names, JavaScript computes 0.375 × 0.6 + 0.3 as 0.5249999999999999 and reports 0.52. `Decision.RoundToCents` of the exact 0.525 is 0.53.
- The same rounding can also decide the strict comparisons of the detector. A score within a rounding error of 0.3 or 0.8 (the classifier gate, `index.ts:124`), of 0.6 (the verdict, `index.ts:176`) or of another candidate's score (the best match, `index.ts:116`) can compare the other way in JavaScript than in the model. Examples:
  - 1 of 2 long words shared, truthy coordinates on both sides, and a distance of 0.25 km. JavaScript computes 0.3 + 0.75 × 0.4 as 0.6000000000000001, which is above 0.6. So it reports a duplicate and writes a vote (`index.ts:176-189`). The model's exact score is 0.6, and with no key `Detection` gives "not a duplicate" and no write.
  - No shared word at 0.25 km. JavaScript's 0.75 × 0.4 is 0.30000000000000004, which is above 0.3, so with a key it consults the classifier. The model's 0.3 does not.
  - All words shared in name mode is 0.6 + 0.3 = 0.8999999999999999 in JavaScript. All words shared at 0.25 km is 0.9. JavaScript then prefers the later, coordinate candidate, while in the model the two tie and `Scoring.BestOfIsFirst` keeps the earlier one.
- `toLowerCase` folds only ASCII letters here. Word lengths count characters, not UTF-16 code units.
- For rows with equal `created_at` the database's order is unspecified. The insertion sort of `Reports.SortNewestFirst` puts such rows in reverse table order, so among equally new candidates with equal scores the later table row is preferred. No order among ties is promised.
- Concurrent detection requests on the same store are not modelled. Neither is the lost update when the fetched vote count is stale.
- In `MobileOffline.tsx` the model leaves out `localStorage` failures (both catch blocks), the toasts, the `setTimeout` delay, and the online/offline listeners. It also leaves out the React closure registered at mount, which would see the initial state. `Sync` reads the state current at the call.
- The display maps are not modelled: `getStatusColor` and `getPriorityColor` in `ActiveCases.tsx`, `getStatusColor` and `formatTimestamp` in `MobileOffline.tsx`. The sample data `mockCases` is not modelled either: the filter works over any list of cases.
- `handleSubmit`, `getCurrentLocation` and the navigation of `ReportIssue.tsx` are timers, geolocation and routing. They are not modelled.

=== FILE: active_cases.dfy ===
/**
  The case list filter of the Active Cases page: a free-text search over
  title and location, a category selector and a status selector, each of
  which the value "all" switches off.
*/
module ActiveCases {
  import opened Text

  datatype Case = Case(
    id: int,
    title: string,
    description: string,
    category: string,
    status: string,
    location: string,
    upvotes: int,
    comments: int,
    reportedBy: string,
    timeAgo: string,
    priority: string)

  /** The selector value that disables the category or the status test. */
  const All: string := "all"

  /** An empty term matches everything; otherwise it must occur in the lower-cased title or location. */
  predicate MatchesSearch(c: Case, searchTerm: string)
    ensures searchTerm == "" ==> MatchesSearch(c, searchTerm)
    ensures MatchesSearch(c, searchTerm) ==> searchTerm == "" || |searchTerm| <= |c.title| || |searchTerm| <= |c.location|
  {
    searchTerm == "" ||
    Contains(Lower(c.title), Lower(searchTerm)) ||
    Contains(Lower(c.location), Lower(searchTerm))
  }

  predicate MatchesCategory(c: Case, selectedCategory: string)
  {
    selectedCategory == All || c.category == selectedCategory
  }

  predicate MatchesStatus(c: Case, selectedStatus: string)
  {
    selectedStatus == All || c.status == selectedStatus
  }

  predicate Keep(c: Case, searchTerm: string, selectedCategory: string, selectedStatus: string)
  {
    MatchesSearch(c, searchTerm) && MatchesCategory(c, selectedCategory) && MatchesStatus(c, selectedStatus)
  }

  /** `filteredCases`. */
  function FilteredCases(cases: seq<Case>, searchTerm: string, selectedCategory: string, selectedStatus: string)
    : (r: seq<Case>)
    ensures |r| <= |cases|
    ensures forall c :: c in r <==> c in cases && Keep(c, searchTerm, selectedCategory, selectedStatus)
  {
    if cases == [] then []
    else
      var rest := FilteredCases(cases[1..], searchTerm, selectedCategory, selectedStatus);
      assert cases == [cases[0]] + cases[1..];
      if Keep(cases[0], searchTerm, selectedCategory, selectedStatus) then [cases[0]] + rest else rest
  }

  /** `sub` is `s` with some elements dropped, the rest in their original order. */
  predicate IsSubsequence<T(==)>(sub: seq<T>, s: seq<T>)
    decreases |s|
  {
    sub == [] || (s != [] && (if sub[0] == s[0] then IsSubsequence(sub[1..], s[1..]) else IsSubsequence(sub, s[1..])))
  }

  /** The filter keeps the cases in their original order. */
  lemma {:induction false} FilteredIsSubsequence(cases: seq<Case>, searchTerm: string,
                                                 selectedCategory: string, selectedStatus: string)
    ensures IsSubsequence(FilteredCases(cases, searchTerm, selectedCategory, selectedStatus), cases)
  {
    if cases != [] {
      var rest := FilteredCases(cases[1..], searchTerm, selectedCategory, selectedStatus);
      FilteredIsSubsequence(cases[1..], searchTerm, selectedCategory, selectedStatus);
      if !Keep(cases[0], searchTerm, selectedCategory, selectedStatus) {
        SubsequenceSkip(rest, cases);
      }
    }
  }

  lemma {:induction false} SubsequenceSkip<T>(sub: seq<T>, s: seq<T>)
    requires s != [] && IsSubsequence(sub, s[1..])
    ensures IsSubsequence(sub, s)
    decreases |sub| + |s|
  {
    if sub != [] && sub[0] == s[0] {
      SubsequenceTail(sub, s[1..]);
    }
  }

  lemma {:induction false} SubsequenceTail<T>(sub: seq<T>, s: seq<T>)
    requires sub != [] && IsSubsequence(sub, s)
    ensures IsSubsequence(sub[1..], s)
    decreases |sub| + |s|
  {
    if sub[0] == s[0] {
      if sub[1..] != [] {
        SubsequenceSkip(sub[1..], s);
      }
    } else {
      SubsequenceTail(sub, s[1..]);
      SubsequenceSkip(sub[1..], s);
    }
  }

  /**
    Each of the three tests only narrows the list: a case shown with some
    search term and selectors is also shown with an empty term, and with
    either selector switched back to "all".
  */
  lemma KeepNarrows(c: Case, searchTerm: string, selectedCategory: string, selectedStatus: string)
    requires Keep(c, searchTerm, selectedCategory, selectedStatus)
    ensures Keep(c, "", selectedCategory, selectedStatus)
    ensures Keep(c, searchTerm, All, selectedStatus)
    ensures Keep(c, searchTerm, selectedCategory, All)
  {
  }

  /** With an empty search and both selectors on "all", every case is shown. */
  lemma {:induction false} NoFilterKeepsAll(cases: seq<Case>)
    ensures FilteredCases(cases, "", All, All) == cases
  {
    if cases != [] {
      NoFilterKeepsAll(cases[1..]);
      assert cases == [cases[0]] + cases[1..];
    }
  }

  /**
    A non-empty term matches exactly when its lower-cased form occurs in the
    lower-cased title or location; the description is never searched.
  */
  lemma SearchMatchesSubstring(c: Case, searchTerm: string)
    requires searchTerm != ""
    ensures MatchesSearch(c, searchTerm) <==>
      (exists i :: OccursAt(Lower(c.title), Lower(searchTerm), i)) ||
      (exists i :: OccursAt(Lower(c.location), Lower(searchTerm), i))
    ensures forall d :: MatchesSearch(c.(description := d), searchTerm) == MatchesSearch(c, searchTerm)
  {
    ContainsIffOccurs(Lower(c.title), Lower(searchTerm));
    ContainsIffOccurs(Lower(c.location), Lower(searchTerm));
  }
}

=== FILE: decision.dfy ===
/**
  From the best heuristic score to the verdict: the optional classifier
  step, the duplicate threshold and the rounding of the reported confidence.
*/
module Decision {
  import opened Options
  import opened Numbers

  /** The classifier is consulted only strictly inside (0.3, 0.8). */
  const AmbiguousLow: real := 0.3
  const AmbiguousHigh: real := 0.8
  /** A classifier "duplicate" counts only above this confidence. */
  const ClassifierMinConfidence: real := 0.7
  /** Scores strictly above this are duplicates. */
  const DuplicateThreshold: real := 0.6

  /** The JSON object the classifier answers with. */
  datatype ClassifierReply = ClassifierReply(isDuplicate: bool, confidence: real, reasoning: string)

  /** `openAIApiKey && highestSimilarity > 0.3 && highestSimilarity < 0.8 && bestMatch`. */
  predicate ShouldConsult(hasKey: bool, highest: real, hasBestMatch: bool)
    ensures highest <= AmbiguousLow || highest >= AmbiguousHigh ==> !ShouldConsult(hasKey, highest, hasBestMatch)
    ensures !hasKey || !hasBestMatch ==> !ShouldConsult(hasKey, highest, hasBestMatch)
  {
    hasKey && AmbiguousLow < highest < AmbiguousHigh && hasBestMatch
  }

  /**
    How a classifier reply moves the score: only a confident "duplicate"
    counts, and it can only raise the score, to the classifier's confidence.
  */
  function ApplyReply(highest: real, reply: ClassifierReply): (r: real)
    ensures r >= highest
    ensures r != highest ==> reply.isDuplicate && reply.confidence > ClassifierMinConfidence && r == reply.confidence
    ensures reply.isDuplicate && reply.confidence > ClassifierMinConfidence ==> r >= reply.confidence
  {
    if reply.isDuplicate && reply.confidence > ClassifierMinConfidence then Max(highest, reply.confidence)
    else highest
  }

  /**
    The score after the optional classifier step. `reply` is what the
    classifier would answer if asked: `None` stands for a response that is
    not OK or a call that throws. The step never lowers the score, and it
    leaves it alone outside the ambiguous band, without a key or without a
    best match; a consulted classifier that answers "duplicate" with a
    confidence above 0.7 raises it to the larger of the two.
  */
  function FinalConfidence(hasKey: bool, highest: real, hasBestMatch: bool, reply: Option<ClassifierReply>): (r: real)
    ensures r >= highest
    ensures !ShouldConsult(hasKey, highest, hasBestMatch) || reply.None? ==> r == highest
    ensures r > highest ==>
      && ShouldConsult(hasKey, highest, hasBestMatch)
      && reply.Some? && reply.value.isDuplicate
      && r == reply.value.confidence > ClassifierMinConfidence
    ensures
      && ShouldConsult(hasKey, highest, hasBestMatch)
      && reply.Some? && reply.value.isDuplicate
      && reply.value.confidence > ClassifierMinConfidence
      ==> r == Max(highest, reply.value.confidence)
  {
    if ShouldConsult(hasKey, highest, hasBestMatch) && reply.Some? then ApplyReply(highest, reply.value)
    else highest
  }

  /** The six boundary scores: only 0.31 and 0.79 reach the classifier. */
  lemma ConsultBoundaries(hasKey: bool)
    ensures !ShouldConsult(hasKey, 0.29, true) && !ShouldConsult(hasKey, 0.3, true)
    ensures ShouldConsult(hasKey, 0.31, true) == hasKey && ShouldConsult(hasKey, 0.79, true) == hasKey
    ensures !ShouldConsult(hasKey, 0.8, true) && !ShouldConsult(hasKey, 0.81, true)
  {
  }

  /** `Math.round`: the nearest integer, halves rounded up. */
  function RoundHalfUp(x: real): (n: int)
    ensures x - 0.5 < n as real <= x + 0.5
  {
    (x + 0.5).Floor
  }

  /** `Math.round(x * 100) / 100`: x to two decimal places. */
  function RoundToCents(x: real): (r: real)
    ensures x - 0.005 < r <= x + 0.005
    ensures (r * 100.0).Floor as real == r * 100.0
    ensures 0.0 <= x <= 1.0 ==> 0.0 <= r <= 1.0
  {
    var n := RoundHalfUp(x * 100.0);
    assert 0.0 <= x <= 1.0 ==> 0 <= n <= 100;
    n as real / 100.0
  }

  /** Rounding to two decimals never reverses the order of two scores. */
  lemma RoundToCentsMonotone(x: real, y: real)
    requires x <= y
    ensures RoundToCents(x) <= RoundToCents(y)
  {
    var a := x * 100.0 + 0.5;
    var b := y * 100.0 + 0.5;
    assert a <= b;
    assert a.Floor <= b.Floor;
  }

  /** The `analysis` text of a response. */
  datatype Analysis =
    | NoRecentReports            // "No recent reports found for comparison"
    | Reasoning(text: string)    // the classifier's reasoning
    | SimilarityPercent(percent: int)  // "Text similarity: <percent>%"

  /**
    `aiAnalysis?.reasoning || ...`: the classifier's reasoning when it was
    consulted, answered and gave a non-empty one; the rounded percentage of
    the final score otherwise.
  */
  function AnalysisOf(consulted: bool, reply: Option<ClassifierReply>, finalScore: real): (a: Analysis)
    ensures a.Reasoning? <==> consulted && reply.Some? && reply.value.reasoning != ""
    ensures a.Reasoning? ==> a.text == reply.value.reasoning
    ensures a.SimilarityPercent? ==> a.percent == RoundHalfUp(finalScore * 100.0)
    ensures !a.NoRecentReports?
  {
    if consulted && reply.Some? && reply.value.reasoning != "" then Reasoning(reply.value.reasoning)
    else SimilarityPercent(RoundHalfUp(finalScore * 100.0))
  }
}

=== FILE: detector.dfy ===
/**
  The duplicate detector as one request: fetch the candidate window, score
  it, consult the classifier when the best score is ambiguous, decide, and on
  a duplicate add one vote to the matched report.
*/
module Detector {
  import opened Options
  import opened Reports
  import opened Scoring
  import opened Decision
  import opened Numbers

  /** `matchedReport` of a response: the matched row as it was fetched. */
  datatype MatchedReport = MatchedReport(id: Id, title: string, upvotes: Option<int>)

  /** `upvotes + 1` in JavaScript, where a NULL count is `null` and `null + 1` is 1. */
  function VotesPlusOne(upvotes: Option<int>): (n: int)
    ensures upvotes.None? ==> n == 1
    ensures upvotes.Some? ==> n == upvotes.value + 1
  {
    (if upvotes.Some? then upvotes.value else 0) + 1
  }

  datatype Response =
    | Verdict(
        isDuplicate: bool,
        parentReportId: Option<Id>,
        confidence: real,
        analysis: Analysis,
        matchedReport: Option<MatchedReport>)
      /** Status 500 with `isDuplicate: false, parentReportId: null, confidence: 0`. */
    | ServerError(message: string)

  /** The single write: set the `upvotes` of row `id`. */
  datatype Merge = Merge(id: Id, upvotes: int)

  datatype Outcome = Outcome(response: Response, merge: Option<Merge>)

  /** Scores of a fetched window: one per candidate, each NaN or in [0, 1]. */
  predicate ScoresFor(window: seq<Report>, scores: seq<Score>)
  {
    |scores| == |window| && UnitScores(scores)
  }

  /**
    The detection of one report against a fetched window, given the
    candidates' scores in window order, as a value: the response and the
    write it asks for. An empty window answers "not a duplicate" with
    confidence 0 and writes nothing.
  */
  function Detection(window: seq<Report>, scores: seq<Score>,
                     hasKey: bool, reply: Option<ClassifierReply>): (o: Outcome)
    requires ScoresFor(window, scores)
    ensures o.response.Verdict?
    ensures window == [] ==> o == Outcome(Verdict(false, None, 0.0, NoRecentReports, None), None)
    ensures o.merge.Some? ==> o.response.isDuplicate
  {
    if window == [] then Outcome(Verdict(false, None, 0.0, NoRecentReports, None), None)
    else
      var best := BestOf(scores);
      var consulted := ShouldConsult(hasKey, best.highest, best.index.Some?);
      var score := FinalConfidence(hasKey, best.highest, best.index.Some?, reply);
      var isDuplicate := score > DuplicateThreshold;
      var matched := if isDuplicate && best.index.Some? then Some(window[best.index.value]) else None;
      var parentReportId := if matched.Some? then Some(matched.value.id) else None;
      var merge := if matched.Some? && matched.value.id != "" then Some(Merge(matched.value.id, VotesPlusOne(matched.value.upvotes))) else None;
      var shown := if matched.Some? then Some(MatchedReport(matched.value.id, matched.value.title, matched.value.upvotes)) else None;
      Outcome(Verdict(isDuplicate, parentReportId, RoundToCents(score), AnalysisOf(consulted, reply, score), shown), merge)
  }

  /**
    The verdict on a non-empty window: duplicate exactly when the final score
    exceeds 0.6; then there is a best match, and the parent id and the
    matched report are that candidate's, otherwise both are null. The final
    score is at least the heuristic one, and the reported confidence is it
    rounded to two decimals.
  */
  lemma DetectionVerdict(window: seq<Report>, scores: seq<Score>,
                         hasKey: bool, reply: Option<ClassifierReply>)
    requires ScoresFor(window, scores) && window != []
    ensures var o := Detection(window, scores, hasKey, reply);
      var best := BestOf(scores);
      var score := FinalConfidence(hasKey, best.highest, best.index.Some?, reply);
      && score >= best.highest
      && (o.response.isDuplicate <==> score > DuplicateThreshold)
      && o.response.confidence == RoundToCents(score)
      && (o.response.isDuplicate ==>
            && best.index.Some?
            && o.response.parentReportId == Some(window[best.index.value].id)
            && o.response.matchedReport.Some?
            && o.response.matchedReport.value.id == window[best.index.value].id)
      && (!o.response.isDuplicate ==> o.response.parentReportId.None? && o.response.matchedReport.None?)
  {
  }

  /**
    A vote is merged exactly when the verdict is "duplicate" (and the parent
    id is a non-empty string); the written count is the matched candidate's
    fetched count plus one.
  */
  lemma MergeIffDuplicate(window: seq<Report>, scores: seq<Score>,
                          hasKey: bool, reply: Option<ClassifierReply>)
    requires ScoresFor(window, scores)
    ensures var o := Detection(window, scores, hasKey, reply);
      && (o.merge.Some? <==> o.response.isDuplicate && o.response.parentReportId.Some? && o.response.parentReportId.value != "")
      && (o.merge.Some? ==>
            var k := BestOf(scores).index;
            && k.Some? && k.value < |window|
            && o.merge.value == Merge(window[k.value].id, VotesPlusOne(window[k.value].upvotes)))
  {
    if window != [] {
      DetectionVerdict(window, scores, hasKey, reply);
    }
  }

  /** With a classifier confidence of at most 1, the reported confidence lies in [0, 1]. */
  lemma ConfidenceInUnitRange(window: seq<Report>, scores: seq<Score>,
                              hasKey: bool, reply: Option<ClassifierReply>)
    requires ScoresFor(window, scores)
    requires reply.Some? ==> reply.value.confidence <= 1.0
    ensures 0.0 <= Detection(window, scores, hasKey, reply).response.confidence <= 1.0
  {
  }

  /**
    A candidate identical to the report (same title, description and
    position, with words longer than 3 characters) makes the report a
    duplicate, whatever the classifier says.
  */
  lemma IdenticalCandidateIsDuplicate(report: NewReport, window: seq<Report>, distance: Distance,
                                      hasKey: bool, reply: Option<ClassifierReply>, k: nat)
    requires k < |window|
    requires window[k].title == report.title && window[k].description == report.description
    requires window[k].latitude == report.latitude && window[k].longitude == report.longitude
    requires HasCoordinates(report.latitude, report.longitude)
    requires distance(Point(report.latitude.value, report.longitude.value),
                      Point(report.latitude.value, report.longitude.value)) == 0.0
    requires NewTokens(report) != []
    ensures var o := Detection(window, Scores(report, window, distance), hasKey, reply);
      o.response.isDuplicate && o.response.confidence == 1.0
  {
    var scores := Scores(report, window, distance);
    IdenticalScoresOne(report, window[k], distance);
    assert scores[k] == Num(1.0);
    TopScoreIsDuplicate(window, scores, hasKey, reply, k);
  }

  /** A window in which some candidate scores 1 yields a duplicate with confidence 1. */
  lemma TopScoreIsDuplicate(window: seq<Report>, scores: seq<Score>,
                            hasKey: bool, reply: Option<ClassifierReply>, k: nat)
    requires ScoresFor(window, scores)
    requires k < |scores| && scores[k] == Num(1.0)
    ensures var o := Detection(window, scores, hasKey, reply);
      o.response.isDuplicate && o.response.confidence == 1.0
  {
    BestOfIsMaximal(scores);
    assert !Exceeds(scores[k], BestOf(scores).highest);
  }

  /**
    A candidate scoring at least 0.8 makes the report a duplicate, whatever
    the classifier says, and the reported confidence is at least that
    score rounded.
  */
  lemma HighScoreIsDuplicate(window: seq<Report>, scores: seq<Score>,
                             hasKey: bool, reply: Option<ClassifierReply>, k: nat)
    requires ScoresFor(window, scores)
    requires k < |scores| && scores[k].Num? && scores[k].value >= AmbiguousHigh
    ensures var o := Detection(window, scores, hasKey, reply);
      o.response.isDuplicate && o.response.confidence >= RoundToCents(scores[k].value)
  {
    BestOfIsMaximal(scores);
    assert !Exceeds(scores[k], BestOf(scores).highest);
    RoundToCentsMonotone(scores[k].value, BestOf(scores).highest);
  }

  /**
    A best score in the ambiguous band (0.3, 0.8) sent to the classifier with
    a key, answered "duplicate" with a confidence above 0.7: the report is a
    duplicate of the best match, with the larger of the two scores rounded as
    its confidence.
  */
  lemma ClassifierConfirmsDuplicate(window: seq<Report>, scores: seq<Score>, confidence: real, reasoning: string)
    requires ScoresFor(window, scores)
    requires AmbiguousLow < BestOf(scores).highest < AmbiguousHigh
    requires confidence > ClassifierMinConfidence
    ensures var o := Detection(window, scores, true, Some(ClassifierReply(true, confidence, reasoning)));
      var best := BestOf(scores);
      && best.index.Some?
      && o.response.isDuplicate
      && o.response.confidence == RoundToCents(Max(best.highest, confidence))
      && o.response.parentReportId == Some(window[best.index.value].id)
  {
  }

  /**
    A candidate with the same title, description and location name, where
    one side lacks truthy coordinates (a missing or a 0 latitude or
    longitude), scores 0.6 + 0.3 = 0.9: the report is a duplicate with a
    confidence of at least 0.9.
  */
  lemma IdenticalNameModeIsDuplicate(report: NewReport, window: seq<Report>, distance: Distance,
                                     hasKey: bool, reply: Option<ClassifierReply>, k: nat)
    requires k < |window|
    requires window[k].title == report.title && window[k].description == report.description
    requires window[k].locationName == report.locationName
    requires !(HasCoordinates(report.latitude, report.longitude) && HasCoordinates(window[k].latitude, window[k].longitude))
    requires NewTokens(report) != []
    ensures var o := Detection(window, Scores(report, window, distance), hasKey, reply);
      o.response.isDuplicate && o.response.confidence >= 0.9
  {
    var scores := Scores(report, window, distance);
    TextSimilaritySelf(NewTokens(report));
    assert CandidateTokens(window[k]) == NewTokens(report);
    assert scores[k] == Num(0.9);
    assert RoundToCents(0.9) == 0.9;
    HighScoreIsDuplicate(window, scores, hasKey, reply, k);
  }

  /**
    One candidate without coordinates, at the same named location but with
    no word in common, scores 0.3: not ambiguous enough for the classifier
    and not a duplicate.
  */
  lemma NameOnlyMatchIsNotDuplicate(report: NewReport, candidate: Report, distance: Distance,
                                    hasKey: bool, reply: Option<ClassifierReply>)
    requires !(HasCoordinates(report.latitude, report.longitude) && HasCoordinates(candidate.latitude, candidate.longitude))
    requires SameLocationName(report.locationName, candidate.locationName)
    requires NewTokens(report) != [] || CandidateTokens(candidate) != []
    requires forall i :: 0 <= i < |NewTokens(report)| ==> NewTokens(report)[i] !in CandidateTokens(candidate)
    ensures var o := Detection([candidate], Scores(report, [candidate], distance), hasKey, reply);
      !o.response.isDuplicate && o.merge.None? && o.response.confidence == 0.3
  {
    var scores := Scores(report, [candidate], distance);
    DisjointSameNameScoresNameWeight(report, candidate, distance);
    assert scores == [Num(0.3)];
    SingleScoreBelowBand([candidate], scores, hasKey, reply);
  }

  /** A lone candidate scoring 0.3 is not sent to the classifier and is not a duplicate. */
  lemma SingleScoreBelowBand(window: seq<Report>, scores: seq<Score>,
                             hasKey: bool, reply: Option<ClassifierReply>)
    requires ScoresFor(window, scores) && scores == [Num(0.3)]
    ensures var o := Detection(window, scores, hasKey, reply);
      !o.response.isDuplicate && o.merge.None? && o.response.confidence == 0.3
  {
    assert scores[..0] == [];
    assert BestOf(scores) == Best(Some(0), 0.3);
  }

  /** The `reports` rows after `update({ upvotes, updated_at }).eq('id', id)`. */
  function WithVotes(rows: seq<Report>, id: Id, upvotes: int, updatedAt: Timestamp): (r: seq<Report>)
    ensures |r| == |rows|
    ensures forall i :: 0 <= i < |rows| && rows[i].id != id ==> r[i] == rows[i]
    ensures forall i :: 0 <= i < |rows| && rows[i].id == id ==>
      r[i] == rows[i].(upvotes := Some(upvotes), updatedAt := updatedAt)
    ensures UniqueIds(rows) ==> UniqueIds(r)
  {
    seq(|rows|, i requires 0 <= i < |rows| =>
      if rows[i].id == id then rows[i].(upvotes := Some(upvotes), updatedAt := updatedAt) else rows[i])
  }

  /** The `reports` table. */
  class ReportStore {
    var rows: seq<Report>

    ghost predicate Valid()
      reads this
    {
      UniqueIds(rows)
    }

    constructor (rows: seq<Report>)
      requires UniqueIds(rows)
      ensures Valid() && this.rows == rows
    {
      this.rows := rows;
    }

    /** The candidate-window query. */
    function Query(categoryId: int, now: Timestamp): (w: seq<Report>)
      reads this
      ensures |w| <= WindowLimit
      ensures forall i :: 0 <= i < |w| ==> w[i] in rows && Eligible(w[i], categoryId, now)
      ensures NewestFirst(w)
    {
      WindowShape(rows, categoryId, now);
      RecentWindow(rows, categoryId, now)
    }

    method UpdateVotes(id: Id, upvotes: int, updatedAt: Timestamp)
      requires Valid()
      modifies this
      ensures Valid()
      ensures rows == WithVotes(old(rows), id, upvotes, updatedAt)
    {
      rows := WithVotes(rows, id, upvotes, updatedAt);
    }
  }

  /**
    One detection request. The environment enters as parameters: the clock
    (`now`), the haversine distance, whether a classifier key is configured,
    the classifier's reply if it is asked, a failure of the candidate query
    and whether the vote update succeeds. A failed update leaves the store
    as it was and does not change the response.
  */
  method Detect(store: ReportStore, report: NewReport, now: Timestamp, distance: Distance,
                hasKey: bool, reply: Option<ClassifierReply>,
                fetchError: Option<string>, updateSucceeds: bool)
    returns (response: Response)
    requires store.Valid()
    modifies store
    ensures store.Valid()
    ensures fetchError.Some? ==> response == ServerError(fetchError.value) && store.rows == old(store.rows)
    ensures fetchError.None? ==>
      var window := RecentWindow(old(store.rows), report.categoryId, now);
      var o := Detection(window, Scores(report, window, distance), hasKey, reply);
      && response == o.response
      && store.rows == if o.merge.Some? && updateSucceeds
                       then WithVotes(old(store.rows), o.merge.value.id, o.merge.value.upvotes, now)
                       else old(store.rows)
    ensures forall i :: 0 <= i < |old(store.rows)| && store.rows[i] != old(store.rows[i]) ==>
      && response.Verdict? && response.isDuplicate
      && Some(old(store.rows[i]).id) == response.parentReportId
      && store.rows[i] == old(store.rows[i]).(upvotes := Some(VotesPlusOne(old(store.rows[i]).upvotes)), updatedAt := now)
  {
    if fetchError.Some? {
      return ServerError(fetchError.value);
    }
    var recentReports := store.Query(report.categoryId, now);
    ghost var scores := Scores(report, recentReports, distance);
    if |recentReports| == 0 {
      return Verdict(false, None, 0.0, NoRecentReports, None);
    }

    var bestMatch, highestSimilarity := FindBestMatch(report, recentReports, distance);
    response := DecideAndMerge(store, recentReports, scores, bestMatch, highestSimilarity,
                               hasKey, reply, updateSucceeds, now);
  }

  /**
    The steps of a detection after the scoring loop: the classifier step,
    the verdict, the vote write and the response, for a non-empty window
    already scored.
  */
  method DecideAndMerge(store: ReportStore, recentReports: seq<Report>, ghost scores: seq<Score>,
                        bestMatch: Option<nat>, highestSimilarity: real,
                        hasKey: bool, reply: Option<ClassifierReply>, updateSucceeds: bool, now: Timestamp)
    returns (response: Response)
    requires store.Valid()
    requires recentReports != [] && ScoresFor(recentReports, scores)
    requires forall i :: 0 <= i < |recentReports| ==> recentReports[i] in store.rows
    requires Best(bestMatch, highestSimilarity) == BestOf(scores)
    modifies store
    ensures store.Valid()
    ensures var o := Detection(recentReports, scores, hasKey, reply);
      && response == o.response
      && store.rows == if o.merge.Some? && updateSucceeds
                       then WithVotes(old(store.rows), o.merge.value.id, o.merge.value.upvotes, now)
                       else old(store.rows)
    ensures forall i :: 0 <= i < |old(store.rows)| && store.rows[i] != old(store.rows[i]) ==>
      && response.Verdict? && response.isDuplicate
      && Some(old(store.rows[i]).id) == response.parentReportId
      && store.rows[i] == old(store.rows[i]).(upvotes := Some(VotesPlusOne(old(store.rows[i]).upvotes)), updatedAt := now)
  {
    ghost var o := Detection(recentReports, scores, hasKey, reply);
    DetectionVerdict(recentReports, scores, hasKey, reply);
    MergeIffDuplicate(recentReports, scores, hasKey, reply);
    MergeWritesParentOnly(store.rows, recentReports, scores, hasKey, reply, now);

    var highest := highestSimilarity;
    var consulted := ShouldConsult(hasKey, highest, bestMatch.Some?);
    var aiAnalysis := if consulted then reply else None;
    if aiAnalysis.Some? && aiAnalysis.value.isDuplicate && aiAnalysis.value.confidence > ClassifierMinConfidence {
      highest := Max(highest, aiAnalysis.value.confidence);
    }
    assert highest == FinalConfidence(hasKey, highestSimilarity, bestMatch.Some?, reply);

    var isDuplicate := highest > DuplicateThreshold;
    var parentReportId := if isDuplicate && bestMatch.Some? then Some(recentReports[bestMatch.value].id) else None;

    if isDuplicate && parentReportId.Some? && parentReportId.value != "" {
      var matched := recentReports[bestMatch.value];
      if updateSucceeds {
        store.UpdateVotes(parentReportId.value, VotesPlusOne(matched.upvotes), now);
      }
    }

    var shown := if isDuplicate && bestMatch.Some? then
      var m := recentReports[bestMatch.value]; Some(MatchedReport(m.id, m.title, m.upvotes))
      else None;
    response := Verdict(isDuplicate, parentReportId, RoundToCents(highest),
                        AnalysisOf(consulted, reply, highest), shown);
  }

  /**
    The write a detection asks for changes only the parent report's row, and
    changes it to its stored vote count plus one with a fresh `updated_at`.
  */
  lemma MergeWritesParentOnly(rows: seq<Report>, window: seq<Report>, scores: seq<Score>,
                              hasKey: bool, reply: Option<ClassifierReply>, now: Timestamp)
    requires UniqueIds(rows)
    requires forall i :: 0 <= i < |window| ==> window[i] in rows
    requires ScoresFor(window, scores)
    ensures var o := Detection(window, scores, hasKey, reply);
      o.merge.Some? ==>
        var written := WithVotes(rows, o.merge.value.id, o.merge.value.upvotes, now);
        forall i :: 0 <= i < |rows| && written[i] != rows[i] ==>
          && o.response.isDuplicate
          && Some(rows[i].id) == o.response.parentReportId
          && written[i] == rows[i].(upvotes := Some(VotesPlusOne(rows[i].upvotes)), updatedAt := now)
  {
    var o := Detection(window, scores, hasKey, reply);
    if o.merge.Some? {
      MergeIffDuplicate(window, scores, hasKey, reply);
      var k := BestOf(scores).index.value;
      MatchedRowIsStored(rows, window[k], window);
    }
  }

  /**
    The fetched candidate is the stored row with its id, so the written
    count is that row's count plus one.
  */
  lemma MatchedRowIsStored(rows: seq<Report>, matched: Report, window: seq<Report>)
    requires UniqueIds(rows)
    requires matched in window
    requires forall i :: 0 <= i < |window| ==> window[i] in rows
    ensures forall i :: 0 <= i < |rows| && rows[i].id == matched.id ==> rows[i] == matched
  {
    var k :| 0 <= k < |window| && window[k] == matched;
    assert matched in rows;
  }
}

=== FILE: mobile_offline.dfy ===
/**
  The offline report queue of the mobile app: reports saved while offline,
  each pending, synced or failed; a sync pass over the pending ones and a
  clean-up of the synced ones. Every save writes the list both to the
  component state and to local storage.
*/
module MobileOffline {

  datatype SyncStatus = Pending | Synced | Failed

  datatype OfflineReport = OfflineReport(
    id: string,
    title: string,
    description: string,
    locationName: string,
    categoryId: int,
    urgencyLevel: string,
    timestamp: string,
    status: SyncStatus)

  predicate UniqueIds(rs: seq<OfflineReport>)
  {
    forall i, j :: 0 <= i < j < |rs| ==> rs[i].id != rs[j].id
  }

  /** `reports.map(r => r.id === id ? { ...r, status } : r)`. */
  function WithStatus(rs: seq<OfflineReport>, id: string, status: SyncStatus): (r: seq<OfflineReport>)
    ensures |r| == |rs|
    ensures forall i :: 0 <= i < |rs| && rs[i].id != id ==> r[i] == rs[i]
    ensures forall i :: 0 <= i < |rs| && rs[i].id == id ==> r[i] == rs[i].(status := status)
  {
    seq(|rs|, i requires 0 <= i < |rs| => if rs[i].id == id then rs[i].(status := status) else rs[i])
  }

  /** `filter(report => report.status === 'pending')`. */
  function PendingOf(rs: seq<OfflineReport>): (r: seq<OfflineReport>)
    ensures |r| <= |rs|
    ensures forall x :: x in r <==> x in rs && x.status == Pending
  {
    if rs == [] then []
    else
      assert rs == [rs[0]] + rs[1..];
      (if rs[0].status == Pending then [rs[0]] else []) + PendingOf(rs[1..])
  }

  /** The pending reports keep their order: the filter distributes over concatenation. */
  lemma {:induction false} PendingAppend(a: seq<OfflineReport>, b: seq<OfflineReport>)
    ensures PendingOf(a + b) == PendingOf(a) + PendingOf(b)
  {
    if a == [] {
      assert a + b == b;
    } else {
      assert (a + b)[1..] == a[1..] + b;
      PendingAppend(a[1..], b);
    }
  }

  /**
    The last entry of the filtered list is the last pending report of the
    list: with `x` pending and nothing pending after it, the pending list of
    `a + [x] + b` is that of `a` followed by `x`.
  */
  lemma PendingEndsWithLast(a: seq<OfflineReport>, x: OfflineReport, b: seq<OfflineReport>)
    requires x.status == Pending
    requires forall j :: 0 <= j < |b| ==> b[j].status != Pending
    ensures PendingOf(a + [x] + b) == PendingOf(a) + [x]
  {
    PendingAppend(a + [x], b);
    PendingAppend(a, [x]);
    assert [x][1..] == [];
    PendingNone(b);
  }

  lemma {:induction false} PendingNone(b: seq<OfflineReport>)
    requires forall j :: 0 <= j < |b| ==> b[j].status != Pending
    ensures PendingOf(b) == []
  {
    if b != [] {
      PendingNone(b[1..]);
    }
  }

  /** `filter(report => report.status !== 'synced')`: what "Clear Synced" keeps. */
  function Unsynced(rs: seq<OfflineReport>): (r: seq<OfflineReport>)
    ensures |r| <= |rs|
    ensures forall x :: x in r <==> x in rs && x.status != Synced
  {
    if rs == [] then []
    else
      assert rs == [rs[0]] + rs[1..];
      (if rs[0].status != Synced then [rs[0]] else []) + Unsynced(rs[1..])
  }

  /** Clearing keeps the order: it distributes over concatenation. */
  lemma {:induction false} UnsyncedAppend(a: seq<OfflineReport>, b: seq<OfflineReport>)
    ensures Unsynced(a + b) == Unsynced(a) + Unsynced(b)
  {
    if a == [] {
      assert a + b == b;
    } else {
      assert (a + b)[1..] == a[1..] + b;
      UnsyncedAppend(a[1..], b);
    }
  }

  /** Clearing twice is clearing once, and it drops exactly the synced reports. */
  lemma {:induction false} UnsyncedCount(rs: seq<OfflineReport>)
    ensures Unsynced(Unsynced(rs)) == Unsynced(rs)
    ensures |Unsynced(rs)| == |rs| - |SyncedOf(rs)|
  {
    if rs != [] {
      UnsyncedCount(rs[1..]);
      var head := if rs[0].status != Synced then [rs[0]] else [];
      UnsyncedAppend(head, Unsynced(rs[1..]));
    }
  }

  function SyncedOf(rs: seq<OfflineReport>): seq<OfflineReport>
  {
    if rs == [] then [] else (if rs[0].status == Synced then [rs[0]] else []) + SyncedOf(rs[1..])
  }

  /**
    The list one iteration of the sync loop saves: the list captured when
    the sync started, with `report` marked synced (or failed when the step
    throws).
  */
  function StepResult(snapshot: seq<OfflineReport>, report: OfflineReport, throws: bool): (r: seq<OfflineReport>)
    ensures |r| == |snapshot|
    ensures forall i :: 0 <= i < |snapshot| && snapshot[i].id != report.id ==> r[i] == snapshot[i]
    ensures forall i :: 0 <= i < |snapshot| && snapshot[i].id == report.id ==>
      r[i] == snapshot[i].(status := if throws then Failed else Synced)
  {
    WithStatus(snapshot, report.id, if throws then Failed else Synced)
  }

  /**
    The list a completed sync leaves behind. Each iteration saves a map over
    the same captured list, so only the last pending report's change
    survives.
  */
  function SyncedList(snapshot: seq<OfflineReport>, throws: OfflineReport -> bool): (r: seq<OfflineReport>)
    ensures PendingOf(snapshot) == [] ==> r == snapshot
  {
    var pending := PendingOf(snapshot);
    if pending == [] then snapshot
    else
      var last := pending[|pending| - 1];
      StepResult(snapshot, last, throws(last))
  }

  /** Marking a report that is not in the list changes nothing. */
  lemma WithStatusAbsent(rs: seq<OfflineReport>, id: string, status: SyncStatus)
    requires forall i :: 0 <= i < |rs| ==> rs[i].id != id
    ensures WithStatus(rs, id, status) == rs
  {
  }

  /**
    With unique ids, marking one pending report synced or failed lowers the
    number of pending reports by exactly one.
  */
  lemma {:induction false} MarkOnePending(rs: seq<OfflineReport>, k: nat, status: SyncStatus)
    requires UniqueIds(rs) && k < |rs| && rs[k].status == Pending && status != Pending
    ensures |PendingOf(WithStatus(rs, rs[k].id, status))| == |PendingOf(rs)| - 1
  {
    var id := rs[k].id;
    var w := WithStatus(rs, id, status);
    assert w[1..] == WithStatus(rs[1..], id, status);
    if k == 0 {
      WithStatusAbsent(rs[1..], id, status);
    } else {
      MarkOnePending(rs[1..], k - 1, status);
    }
  }

  /**
    The stale-list effect: after a sync over n pending reports (unique ids),
    n - 1 of them are still pending; the last pending one is marked synced,
    or failed when its step throws, and no other report has changed.
  */
  lemma SyncLeavesOthersPending(snapshot: seq<OfflineReport>, throws: OfflineReport -> bool)
    requires UniqueIds(snapshot)
    requires PendingOf(snapshot) != []
    ensures var pending := PendingOf(snapshot);
      var r := SyncedList(snapshot, throws);
      && |PendingOf(r)| == |pending| - 1
      && |r| == |snapshot|
      && (forall i :: 0 <= i < |snapshot| && snapshot[i] != pending[|pending| - 1] ==> r[i] == snapshot[i])
      && (forall i :: 0 <= i < |snapshot| && snapshot[i] == pending[|pending| - 1] ==>
            r[i] == snapshot[i].(status := if throws(snapshot[i]) then Failed else Synced))
  {
    var pending := PendingOf(snapshot);
    var last := pending[|pending| - 1];
    var r := SyncedList(snapshot, throws);
    assert r == StepResult(snapshot, last, throws(last));
    assert last in pending;
    var k :| 0 <= k < |snapshot| && snapshot[k] == last;
    MarkOnePending(snapshot, k, if throws(last) then Failed else Synced);
    forall i | 0 <= i < |snapshot| && snapshot[i] != last
      ensures r[i] == snapshot[i]
    {
      assert i != k;
      assert snapshot[i].id != last.id;
    }
  }

  /** The state of the offline screen. */
  class OfflineQueue {
    var isOnline: bool
    /** The `offlineReports` state. */
    var reports: seq<OfflineReport>
    /** The `offlineReports` entry of local storage. */
    var stored: seq<OfflineReport>
    var syncing: bool

    constructor (isOnline: bool, stored: seq<OfflineReport>)
      ensures this.isOnline == isOnline && !syncing
      ensures reports == stored && this.stored == stored
    {
      this.isOnline := isOnline;
      this.reports := stored;
      this.stored := stored;
      this.syncing := false;
    }

    /** `saveOfflineReports`. */
    method Save(rs: seq<OfflineReport>)
      modifies this
      ensures reports == rs && stored == rs
      ensures isOnline == old(isOnline) && syncing == old(syncing)
    {
      stored := rs;
      reports := rs;
    }

    /**
      `syncOfflineData`. `throws` says which simulated upload steps throw.
      Offline or already syncing: nothing happens. Otherwise the list is
      saved as `SyncedList` of the list captured at the start, and the
      syncing flag is clear again at the end.
    */
    method Sync(throws: OfflineReport -> bool)
      modifies this
      ensures isOnline == old(isOnline)
      ensures !old(isOnline) || old(syncing) ==>
        reports == old(reports) && stored == old(stored) && syncing == old(syncing)
      ensures old(isOnline) && !old(syncing) ==>
        && !syncing
        && reports == SyncedList(old(reports), throws)
        && (PendingOf(old(reports)) != [] ==> stored == reports)
        && (PendingOf(old(reports)) == [] ==> stored == old(stored))
    {
      if !isOnline || syncing {
        return;
      }
      syncing := true;
      var offlineReports := reports;
      var pendingReports := PendingOf(offlineReports);
      if |pendingReports| == 0 {
        syncing := false;
        return;
      }
      for i := 0 to |pendingReports|
        invariant isOnline == old(isOnline) && syncing
        invariant i == 0 ==> reports == offlineReports && stored == old(stored)
        invariant i > 0 ==>
          reports == StepResult(offlineReports, pendingReports[i - 1], throws(pendingReports[i - 1])) &&
          stored == reports
      {
        var report := pendingReports[i];
        var updatedReports;
        if throws(report) {
          updatedReports := WithStatus(offlineReports, report.id, Failed);
        } else {
          updatedReports := WithStatus(offlineReports, report.id, Synced);
        }
        Save(updatedReports);
      }
      syncing := false;
    }

    /** `clearSyncedReports`. */
    method ClearSynced()
      modifies this
      ensures reports == Unsynced(old(reports)) && stored == reports
      ensures isOnline == old(isOnline) && syncing == old(syncing)
    {
      Save(Unsynced(reports));
    }
  }
}

=== FILE: numbers.dfy ===
/** Small numeric helpers shared by the modules of the model. */
module Numbers {

  function Min(a: int, b: int): (m: int)
    ensures m <= a && m <= b && (m == a || m == b)
  {
    if a <= b then a else b
  }

  /** `Math.max` on two numbers. */
  function Max(a: real, b: real): (m: real)
    ensures m >= a && m >= b && (m == a || m == b)
  {
    if a >= b then a else b
  }

  /** A ratio of a part to a positive whole lies in [0, 1]. */
  lemma RatioInUnit(part: real, whole: real)
    requires 0.0 <= part <= whole && whole > 0.0
    ensures 0.0 <= part / whole <= 1.0
  {
    assert part / whole * whole == part;
  }
}

=== FILE: options.dfy ===
/** Optional values: a JavaScript `null`/`undefined` on one side, a present value on the other. */
module Options {
  datatype Option<+T> = None | Some(value: T)
}

=== FILE: report_issue.dfy ===
/**
  List logic of the Report Issue form: the attached photos (at most five,
  appended in order, removable by position) and the lookup of an urgency
  level's display settings.
*/
module ReportIssue {
  import opened Options
  import opened Numbers

  /** A browser `File`, reduced to what the form shows. */
  datatype File = File(name: string, size: nat)

  const MaxFiles: nat := 5

  /** `[...prev, ...files].slice(0, 5)`. */
  function AppendCapped(prev: seq<File>, files: seq<File>): (r: seq<File>)
    ensures |r| == Min(MaxFiles, |prev| + |files|)
    ensures r == (prev + files)[..|r|]
  {
    (prev + files)[..Min(MaxFiles, |prev| + |files|)]
  }

  /**
    An upload onto at most five files keeps them in place, appends new files
    after them and drops the excess; onto five files it changes nothing.
  */
  lemma AppendCappedKeepsPrefix(prev: seq<File>, files: seq<File>)
    requires |prev| <= MaxFiles
    ensures var r := AppendCapped(prev, files);
      && r[..|prev|] == prev
      && r[|prev|..] == files[..|r| - |prev|]
      && (|prev| == MaxFiles ==> r == prev)
  {
    var r := AppendCapped(prev, files);
    assert (prev + files)[..|prev|] == prev;
    assert forall i :: |prev| <= i < |r| ==> r[i] == files[i - |prev|];
  }

  /** `prev.filter((_, i) => i !== index)`. */
  function WithoutIndex(s: seq<File>, index: int): (r: seq<File>)
    ensures |r| <= |s|
  {
    if s == [] then []
    else (if index == 0 then [] else [s[0]]) + WithoutIndex(s[1..], index - 1)
  }

  /**
    Removing a position in range drops exactly that element and keeps the
    others in order; any other index leaves the list as it is.
  */
  lemma {:induction false} WithoutIndexSpec(s: seq<File>, index: int)
    ensures 0 <= index < |s| ==> WithoutIndex(s, index) == s[..index] + s[index + 1..]
    ensures !(0 <= index < |s|) ==> WithoutIndex(s, index) == s
  {
    if s != [] {
      WithoutIndexSpec(s[1..], index - 1);
      if index == 0 {
        assert s[..0] + s[1..] == s[1..];
      } else if 0 < index < |s| {
        assert s[..index] == [s[0]] + s[1..][..index - 1];
        assert s[index + 1..] == s[1..][index..];
      } else {
        assert s == [s[0]] + s[1..];
      }
    }
  }

  /** An entry of `urgencyLevels`. */
  datatype UrgencyLevel = UrgencyLevel(value: string, labelText: string, color: string)

  const UrgencyLevels: seq<UrgencyLevel> := [
    UrgencyLevel("low", "Low Priority", "bg-muted text-muted-foreground"),
    UrgencyLevel("medium", "Medium Priority", "bg-warning text-warning-foreground"),
    UrgencyLevel("high", "High Priority", "bg-destructive text-destructive-foreground"),
    UrgencyLevel("critical", "Critical/Emergency", "bg-destructive text-destructive-foreground animate-pulse")
  ]

  /** `levels.find(u => u.value === value)`: the first entry with that value. */
  function FindLevel(levels: seq<UrgencyLevel>, value: string): (r: Option<nat>)
    ensures r.None? <==> forall i :: 0 <= i < |levels| ==> levels[i].value != value
    ensures r.Some? ==>
      && r.value < |levels| && levels[r.value].value == value
      && forall i :: 0 <= i < r.value ==> levels[i].value != value
  {
    if levels == [] then None
    else if levels[0].value == value then Some(0)
    else
      match FindLevel(levels[1..], value)
      case None => None
      case Some(k) => Some(k + 1)
  }

  /** `getUrgencyConfig`: the entry for `level`, or the "medium" entry when there is none. */
  function UrgencyConfig(level: string): (u: UrgencyLevel)
    ensures level in {"low", "medium", "high", "critical"} ==> u.value == level
    ensures level !in {"low", "medium", "high", "critical"} ==> u == UrgencyLevels[1] && u.value == "medium"
    ensures u in UrgencyLevels
  {
    match FindLevel(UrgencyLevels, level)
    case Some(k) => UrgencyLevels[k]
    case None => UrgencyLevels[1]
  }

  /** The `selectedFiles` state of the form. */
  class FileSelection {
    var selectedFiles: seq<File>

    ghost predicate Valid()
      reads this
    {
      |selectedFiles| <= MaxFiles
    }

    constructor ()
      ensures Valid() && selectedFiles == []
    {
      selectedFiles := [];
    }

    /** `handleFileUpload`; `picked` is `event.target.files`, possibly null. */
    method HandleFileUpload(picked: Option<seq<File>>)
      requires Valid()
      modifies this
      ensures Valid()
      ensures selectedFiles == AppendCapped(old(selectedFiles), if picked.Some? then picked.value else [])
      ensures selectedFiles[..|old(selectedFiles)|] == old(selectedFiles)
    {
      var files := if picked.Some? then picked.value else [];
      AppendCappedKeepsPrefix(selectedFiles, files);
      selectedFiles := AppendCapped(selectedFiles, files);
    }

    /** `removeFile`. */
    method RemoveFile(index: int)
      requires Valid()
      modifies this
      ensures Valid()
      ensures 0 <= index < |old(selectedFiles)| ==>
        selectedFiles == old(selectedFiles)[..index] + old(selectedFiles)[index + 1..]
      ensures !(0 <= index < |old(selectedFiles)|) ==> selectedFiles == old(selectedFiles)
    {
      WithoutIndexSpec(selectedFiles, index);
      selectedFiles := WithoutIndex(selectedFiles, index);
    }
  }
}

=== FILE: reports.dfy ===
/**
  Rows of the `reports` table as the duplicate detector reads them, and the
  candidate-window query it issues for one incoming report: same category,
  not flagged as a duplicate, created in the last 30 days, newest first, at
  most 20 rows.
*/
module Reports {
  import opened Options
  import opened Numbers

  type Id = string

  /** Milliseconds since the epoch; `created_at` and `updated_at` columns. */
  type Timestamp = int

  /**
    One stored report (the columns the detector selects or writes).
    `is_duplicate` and `upvotes` are nullable columns.
  */
  datatype Report = Report(
    id: Id,
    title: string,
    description: string,
    locationName: string,
    latitude: Option<real>,
    longitude: Option<real>,
    categoryId: int,
    isDuplicate: Option<bool>,
    upvotes: Option<int>,
    createdAt: Timestamp,
    updatedAt: Timestamp)

  /** `id` is the table's primary key. */
  predicate UniqueIds(rows: seq<Report>)
  {
    forall i, j :: 0 <= i < j < |rows| ==> rows[i].id != rows[j].id
  }

  /** The incoming submission: no id and no vote count yet. */
  datatype NewReport = NewReport(
    title: string,
    description: string,
    locationName: string,
    categoryId: int,
    latitude: Option<real>,
    longitude: Option<real>)

  const LookbackMillis: int := 30 * 24 * 60 * 60 * 1000
  const WindowLimit: nat := 20

  /** Earliest `created_at` the query accepts. */
  function Cutoff(now: Timestamp): Timestamp
  {
    now - LookbackMillis
  }

  /**
    The three `eq`/`gte` filters of the query. `eq('is_duplicate', false)`
    is SQL equality, so a row whose flag is NULL is not selected.
  */
  predicate Eligible(r: Report, categoryId: int, now: Timestamp)
  {
    r.categoryId == categoryId && r.isDuplicate == Some(false) && r.createdAt >= Cutoff(now)
  }

  function FilterEligible(rows: seq<Report>, categoryId: int, now: Timestamp): (r: seq<Report>)
    ensures forall i :: 0 <= i < |r| ==> Eligible(r[i], categoryId, now)
    ensures forall x :: x in r <==> x in rows && Eligible(x, categoryId, now)
    ensures multiset(r) <= multiset(rows)
  {
    if rows == [] then []
    else
      var rest := FilterEligible(rows[1..], categoryId, now);
      assert rows == [rows[0]] + rows[1..];
      if Eligible(rows[0], categoryId, now) then [rows[0]] + rest else rest
  }

  /** `order('created_at', { ascending: false })`. */
  predicate NewestFirst(s: seq<Report>)
  {
    forall i, j :: 0 <= i < j < |s| ==> s[i].createdAt >= s[j].createdAt
  }

  /** Inserts `x` into a newest-first list, after the rows exactly as new as it. */
  function InsertNewestFirst(x: Report, s: seq<Report>): (r: seq<Report>)
    ensures multiset(r) == multiset(s) + multiset{x}
    ensures |r| == |s| + 1
  {
    if s == [] then [x]
    else if s[0].createdAt < x.createdAt then [x] + s
    else
      assert s == [s[0]] + s[1..];
      [s[0]] + InsertNewestFirst(x, s[1..])
  }

  lemma {:induction false} InsertKeepsNewestFirst(x: Report, s: seq<Report>)
    requires NewestFirst(s)
    ensures NewestFirst(InsertNewestFirst(x, s))
    ensures forall y :: y in InsertNewestFirst(x, s) ==> y == x || y in s
  {
    var r := InsertNewestFirst(x, s);
    if s == [] {
    } else if s[0].createdAt < x.createdAt {
      assert r == [x] + s;
    } else {
      var rest := InsertNewestFirst(x, s[1..]);
      InsertKeepsNewestFirst(x, s[1..]);
      assert r == [s[0]] + rest;
      forall j | 0 <= j < |rest|
        ensures s[0].createdAt >= rest[j].createdAt
      {
        assert rest[j] in rest;
      }
    }
  }

  function SortNewestFirst(s: seq<Report>): (r: seq<Report>)
    ensures NewestFirst(r)
    ensures multiset(r) == multiset(s)
    ensures |r| == |s|
  {
    if s == [] then []
    else
      var rest := SortNewestFirst(s[1..]);
      InsertKeepsNewestFirst(s[0], rest);
      assert s == [s[0]] + s[1..];
      InsertNewestFirst(s[0], rest)
  }

  /** The rows the detector compares against, in the order it compares them. */
  function RecentWindow(rows: seq<Report>, categoryId: int, now: Timestamp): (w: seq<Report>)
    ensures |w| == Min(WindowLimit, |FilterEligible(rows, categoryId, now)|)
    ensures NewestFirst(w)
  {
    var sorted := SortNewestFirst(FilterEligible(rows, categoryId, now));
    sorted[..Min(WindowLimit, |sorted|)]
  }

  /**
    Every candidate is a stored row that passes the three filters; the
    window is newest first and holds min(20, number of eligible rows) rows.
  */
  lemma WindowShape(rows: seq<Report>, categoryId: int, now: Timestamp)
    ensures var w := RecentWindow(rows, categoryId, now);
      && |w| == Min(WindowLimit, |FilterEligible(rows, categoryId, now)|)
      && |w| <= WindowLimit
      && NewestFirst(w)
      && (forall i :: 0 <= i < |w| ==> w[i] in rows && Eligible(w[i], categoryId, now))
      && multiset(w) <= multiset(rows)
  {
    var e := FilterEligible(rows, categoryId, now);
    var sorted := SortNewestFirst(e);
    var w := RecentWindow(rows, categoryId, now);
    assert sorted == w + sorted[|w|..];
    assert multiset(w) <= multiset(sorted);
    forall i | 0 <= i < |w|
      ensures w[i] in rows && Eligible(w[i], categoryId, now)
    {
      assert w[i] in multiset(sorted);
      assert w[i] in e;
    }
  }

  /**
    The window holds the newest eligible rows: an eligible row that was left
    out is no newer than any row that was taken.
  */
  lemma WindowIsNewest(rows: seq<Report>, categoryId: int, now: Timestamp, x: Report)
    requires x in rows && Eligible(x, categoryId, now)
    requires x !in RecentWindow(rows, categoryId, now)
    ensures forall i :: 0 <= i < |RecentWindow(rows, categoryId, now)| ==>
      x.createdAt <= RecentWindow(rows, categoryId, now)[i].createdAt
  {
    var e := FilterEligible(rows, categoryId, now);
    var sorted := SortNewestFirst(e);
    var w := RecentWindow(rows, categoryId, now);
    assert x in multiset(e);
    assert x in multiset(sorted);
    var k :| 0 <= k < |sorted| && sorted[k] == x;
    assert k >= |w| by {
      assert forall j :: 0 <= j < |w| ==> sorted[j] in w;
    }
  }
}

=== FILE: scoring.dfy ===
/**
  Pairwise scoring of the incoming report against each candidate, and the
  scan that keeps the best-scoring candidate.

  Arithmetic is on mathematical reals, without binary rounding. The one
  special IEEE value the scoring can produce, the NaN of `0 / 0` when
  neither text has a long word, is kept as its own case of `Score`.
*/
module Scoring {
  import opened Options
  import opened Text
  import opened Reports
  import opened Numbers

  const TextWeight: real := 0.6
  const CoordinateWeight: real := 0.4
  const NameWeight: real := 0.3

  /** A JavaScript number as the scoring can produce it: NaN or a finite value. */
  datatype Score = NaN | Num(value: real)

  /** A strict `>` of JavaScript: NaN compares false against everything. */
  predicate Exceeds(s: Score, bound: real)
  {
    s.Num? && s.value > bound
  }

  /** A great-circle distance in kilometres; never negative. */
  type Km = d: real | 0.0 <= d

  /** A (latitude, longitude) pair in decimal degrees. */
  datatype Point = Point(latitude: real, longitude: real)

  /** The haversine distance, supplied by the caller. */
  type Distance = (Point, Point) -> Km

  // ---------------------------------------------------------------- text

  /** `filter(word => word.length > 3)`. */
  function LongWords(ws: seq<string>): (r: seq<string>)
    ensures forall i :: 0 <= i < |r| ==> |r[i]| > 3
    ensures forall w :: w in r <==> w in ws && |w| > 3
  {
    if ws == [] then []
    else (if |ws[0]| > 3 then [ws[0]] else []) + LongWords(ws[1..])
  }

  /**
    Every word longer than 3 is kept as often as it occurs and every other
    word is dropped; `LongWordsAppend` gives the order.
  */
  lemma {:induction false} LongWordsCount(ws: seq<string>, w: string)
    ensures multiset(LongWords(ws))[w] == if |w| > 3 then multiset(ws)[w] else 0
  {
    if ws != [] {
      assert ws == [ws[0]] + ws[1..];
      LongWordsCount(ws[1..], w);
    }
  }

  lemma {:induction false} LongWordsAppend(a: seq<string>, b: seq<string>)
    ensures LongWords(a + b) == LongWords(a) + LongWords(b)
  {
    if a == [] {
      assert a + b == b;
    } else {
      assert (a + b)[1..] == a[1..] + b;
      LongWordsAppend(a[1..], b);
    }
  }

  /** The words of a report's text: lower-cased, whitespace-split, longer than 3. */
  function Tokens(text: string): (ts: seq<string>)
    ensures text == [] ==> ts == []
    ensures forall i :: 0 <= i < |ts| ==> |ts[i]| > 3 && NoWhitespace(ts[i])
  {
    LongWords(Words(Lower(text)))
  }

  /** `${title} ${description}` of either kind of report. */
  function ReportText(title: string, description: string): string
  {
    title + " " + description
  }

  /**
    A text that is one run of non-whitespace characters yields its
    lower-cased form as its only token when it is longer than 3, and no
    token otherwise.
  */
  lemma TokensOfWord(w: string)
    requires w != [] && NoWhitespace(w)
    ensures Tokens(w) == if |w| > 3 then [Lower(w)] else []
  {
    assert NoWhitespace(Lower(w)) by {
      forall i | 0 <= i < |w|
        ensures !IsWhitespace(Lower(w)[i])
      {
        assert !IsWhitespace(w[i]);
      }
    }
    WordsOfRun(Lower(w));
    var x := Lower(w);
    assert [x][1..] == [];
    assert LongWords([x]) == (if |x| > 3 then [x] else []) + LongWords([]);
  }

  /**
    A whitespace character between two texts separates their tokens: the
    tokens of `a + [c] + b` are the tokens of `a` followed by those of `b`.
    With `TokensOfWord` this fixes the tokens of every text.
  */
  lemma TokensAroundSpace(a: string, c: char, b: string)
    requires IsWhitespace(c)
    ensures Tokens(a + [c] + b) == Tokens(a) + Tokens(b)
  {
    LowerAppend(a + [c], b);
    LowerAppend(a, [c]);
    assert Lower([c]) == [c];
    WordsAroundSpace(Lower(a), c, Lower(b));
    LongWordsAppend(Words(Lower(a)), Words(Lower(b)));
  }

  /**
    The tokens of a report are the tokens of its title followed by those of
    its description: joining the two with a space merges no words.
  */
  lemma ReportTokens(title: string, description: string)
    ensures Tokens(ReportText(title, description)) == Tokens(title) + Tokens(description)
  {
    assert ReportText(title, description) == title + [' '] + description;
    TokensAroundSpace(title, ' ', description);
  }

  /**
    `commonWords`: how many entries of `ws` (each occurrence on its own)
    occur anywhere in `other`.
  */
  function CommonCount(ws: seq<string>, other: seq<string>): (c: nat)
    ensures c <= |ws|
  {
    if ws == [] then 0
    else CommonCount(ws[..|ws| - 1], other) + (if ws[|ws| - 1] in other then 1 else 0)
  }

  /** Every word counts exactly when every word of `ws` occurs in `other`. */
  lemma {:induction false} CommonCountAll(ws: seq<string>, other: seq<string>)
    ensures CommonCount(ws, other) == |ws| <==> forall i :: 0 <= i < |ws| ==> ws[i] in other
  {
    if ws != [] {
      var init := ws[..|ws| - 1];
      CommonCountAll(init, other);
      assert forall i :: 0 <= i < |init| ==> init[i] == ws[i];
    }
  }

  /** No word counts exactly when no word of `ws` occurs in `other`. */
  lemma {:induction false} CommonCountNone(ws: seq<string>, other: seq<string>)
    ensures CommonCount(ws, other) == 0 <==> forall i :: 0 <= i < |ws| ==> ws[i] !in other
  {
    if ws != [] {
      var init := ws[..|ws| - 1];
      CommonCountNone(init, other);
      assert forall i :: 0 <= i < |init| ==> init[i] == ws[i];
    }
  }

  /** The counting loop over the new report's words. */
  method CountCommonWords(newWords: seq<string>, existingWords: seq<string>) returns (commonWords: nat)
    ensures commonWords == CommonCount(newWords, existingWords)
    ensures commonWords <= |newWords|
  {
    commonWords := 0;
    for i := 0 to |newWords|
      invariant commonWords == CommonCount(newWords[..i], existingWords)
    {
      assert newWords[..i + 1][..i] == newWords[..i];
      if newWords[i] in existingWords {
        commonWords := commonWords + 1;
      }
    }
    assert newWords[..|newWords|] == newWords;
  }

  /**
    `commonWords / Math.max(newWords.length, existingWords.length)`. There is
    no guard: two empty token lists divide 0 by 0 and give NaN.
  */
  function TextSimilarity(newWords: seq<string>, existingWords: seq<string>): (r: Score)
    ensures r.NaN? <==> newWords == [] && existingWords == []
    ensures r.Num? ==> 0.0 <= r.value <= 1.0
  {
    var denominator := Max(|newWords| as real, |existingWords| as real);
    if denominator == 0.0 then NaN
    else
      var c := CommonCount(newWords, existingWords);
      RatioInUnit(c as real, denominator);
      Num(c as real / denominator)
  }

  /** Identical, non-empty token lists are fully similar. */
  lemma TextSimilaritySelf(ws: seq<string>)
    requires ws != []
    ensures TextSimilarity(ws, ws) == Num(1.0)
  {
    CommonCountAll(ws, ws);
  }

  /** Token lists with no word in common, not both empty, have similarity 0. */
  lemma TextSimilarityDisjoint(newWords: seq<string>, existingWords: seq<string>)
    requires newWords != [] || existingWords != []
    requires forall i :: 0 <= i < |newWords| ==> newWords[i] !in existingWords
    ensures TextSimilarity(newWords, existingWords) == Num(0.0)
  {
    CommonCountNone(newWords, existingWords);
  }

  // ------------------------------------------------------------ location

  /** JavaScript truthiness of an optional number: present and not 0. */
  predicate Truthy(x: Option<real>)
  {
    x.Some? && x.value != 0.0
  }

  /** `latitude && longitude` on one report. */
  predicate HasCoordinates(latitude: Option<real>, longitude: Option<real>)
  {
    Truthy(latitude) && Truthy(longitude)
  }

  /**
    A coordinate of exactly 0 is falsy, so a report at latitude or longitude
    0 is scored as if it had no position: by its location name alone.
  */
  lemma ZeroCoordinateUsesName(report: NewReport, candidate: Report, distance: Distance)
    requires report.latitude == Some(0.0) || report.longitude == Some(0.0)
    ensures LocationTerm(report, candidate, distance) ==
      if SameLocationName(report.locationName, candidate.locationName) then NameWeight else 0.0
  {
  }

  /** `Math.max(0, 1 - distance / 1.0)`: full at 0 km, nothing from 1 km on. */
  function LocationSimilarity(d: Km): (r: real)
    ensures 0.0 <= r <= 1.0
    ensures d == 0.0 <==> r == 1.0
    ensures d >= 1.0 <==> r == 0.0
    ensures d < 1.0 ==> r == 1.0 - d
  {
    if 1.0 - d / 1.0 > 0.0 then 1.0 - d / 1.0 else 0.0
  }

  /** The similarity never grows with the distance. */
  lemma LocationSimilarityAntitone(d1: Km, d2: Km)
    requires d1 <= d2
    ensures LocationSimilarity(d2) <= LocationSimilarity(d1)
  {
  }

  /** Case-insensitive equality of the two location names. */
  predicate SameLocationName(a: string, b: string)
  {
    Lower(a) == Lower(b)
  }

  /** The weighted location term of one comparison. */
  function LocationTerm(report: NewReport, candidate: Report, distance: Distance): (r: real)
    ensures HasCoordinates(report.latitude, report.longitude) && HasCoordinates(candidate.latitude, candidate.longitude) ==>
      0.0 <= r <= CoordinateWeight
    ensures !(HasCoordinates(report.latitude, report.longitude) && HasCoordinates(candidate.latitude, candidate.longitude)) ==>
      r == (if SameLocationName(report.locationName, candidate.locationName) then NameWeight else 0.0)
  {
    if HasCoordinates(report.latitude, report.longitude) && HasCoordinates(candidate.latitude, candidate.longitude) then
      var d := distance(Point(report.latitude.value, report.longitude.value),
                        Point(candidate.latitude.value, candidate.longitude.value));
      LocationSimilarity(d) * CoordinateWeight
    else
      (if SameLocationName(report.locationName, candidate.locationName) then 1.0 else 0.0) * NameWeight
  }

  // ----------------------------------------------------------- composite

  function NewTokens(report: NewReport): seq<string>
  {
    Tokens(ReportText(report.title, report.description))
  }

  function CandidateTokens(candidate: Report): seq<string>
  {
    Tokens(ReportText(candidate.title, candidate.description))
  }

  /**
    The composite score of one candidate: 0.6 of the text similarity plus the
    location term. It is NaN exactly when neither text has a word longer than
    3; otherwise it lies in [0, 1], and in [0, 0.9] when the location term
    came from the names.
  */
  function Similarity(report: NewReport, candidate: Report, distance: Distance): (r: Score)
    ensures r.NaN? <==> NewTokens(report) == [] && CandidateTokens(candidate) == []
    ensures r.Num? ==> 0.0 <= r.value <= 1.0
    ensures r.Num? && !(HasCoordinates(report.latitude, report.longitude) && HasCoordinates(candidate.latitude, candidate.longitude)) ==>
      r.value <= 0.9
  {
    Weighted(TextSimilarity(NewTokens(report), CandidateTokens(candidate)), LocationTerm(report, candidate, distance))
  }

  /** `textSimilarity * 0.6` plus the location term; NaN stays NaN. */
  function Weighted(text: Score, location: real): Score
  {
    match text
    case NaN => NaN
    case Num(t) => Num(t * TextWeight + location)
  }

  /**
    A report and a candidate with the same title, description and position
    (at distance 0) score exactly 1, provided the text has a word longer
    than 3 characters.
  */
  lemma IdenticalScoresOne(report: NewReport, candidate: Report, distance: Distance)
    requires candidate.title == report.title && candidate.description == report.description
    requires candidate.latitude == report.latitude && candidate.longitude == report.longitude
    requires HasCoordinates(report.latitude, report.longitude)
    requires distance(Point(report.latitude.value, report.longitude.value),
                      Point(report.latitude.value, report.longitude.value)) == 0.0
    requires NewTokens(report) != []
    ensures Similarity(report, candidate, distance) == Num(1.0)
  {
    TextSimilaritySelf(NewTokens(report));
  }

  /**
    Disjoint texts at the same named location, without coordinates, score
    exactly 0.3.
  */
  lemma DisjointSameNameScoresNameWeight(report: NewReport, candidate: Report, distance: Distance)
    requires !(HasCoordinates(report.latitude, report.longitude) && HasCoordinates(candidate.latitude, candidate.longitude))
    requires SameLocationName(report.locationName, candidate.locationName)
    requires NewTokens(report) != [] || CandidateTokens(candidate) != []
    requires forall i :: 0 <= i < |NewTokens(report)| ==> NewTokens(report)[i] !in CandidateTokens(candidate)
    ensures Similarity(report, candidate, distance) == Num(0.3)
  {
    TextSimilarityDisjoint(NewTokens(report), CandidateTokens(candidate));
  }

  /** Scores one candidate, running the word-counting loop. */
  method ScoreCandidate(report: NewReport, candidate: Report, distance: Distance) returns (similarity: Score)
    ensures similarity == Similarity(report, candidate, distance)
  {
    var newWords := NewTokens(report);
    var existingWords := CandidateTokens(candidate);
    similarity := ScoreWords(newWords, existingWords, LocationTerm(report, candidate, distance));
  }

  /**
    The text part of one comparison: the word-counting loop and the ratio,
    combined with the candidate's location term.
  */
  method ScoreWords(newWords: seq<string>, existingWords: seq<string>, location: real) returns (similarity: Score)
    ensures similarity == Weighted(TextSimilarity(newWords, existingWords), location)
  {
    var commonWords := CountCommonWords(newWords, existingWords);
    var denominator := Max(|newWords| as real, |existingWords| as real);
    TextSimilarityFromCount(newWords, existingWords);
    if denominator == 0.0 {
      return NaN;
    }
    var textSimilarity := commonWords as real / denominator;
    similarity := Num(textSimilarity * TextWeight + location);
  }

  /** The text similarity in the terms the scoring loop computes it in. */
  lemma TextSimilarityFromCount(newWords: seq<string>, existingWords: seq<string>)
    ensures var denominator := Max(|newWords| as real, |existingWords| as real);
      TextSimilarity(newWords, existingWords) ==
        if denominator == 0.0 then NaN
        else Num(CommonCount(newWords, existingWords) as real / denominator)
  {
  }

  // ---------------------------------------------------------- best match

  /** `bestMatch` (as an index into the candidates) and `highestSimilarity`. */
  datatype Best = Best(index: Option<nat>, highest: real)

  /** Strictly below `bound` under JavaScript's `<`, or NaN. */
  predicate Below(s: Score, bound: real)
  {
    s.NaN? || s.value < bound
  }

  /**
    The scan over the scores in candidate order: a score replaces the current
    best only when it is strictly greater. The highest score lies in [0, 1];
    it is the score of the best match when there is one, and stays 0 when
    there is none.
  */
  function BestOf(scores: seq<Score>): (b: Best)
    requires UnitScores(scores)
    ensures 0.0 <= b.highest <= 1.0
    ensures b.index.None? ==> b.highest == 0.0
    ensures b.index.Some? ==>
      && b.index.value < |scores|
      && b.highest > 0.0
      && scores[b.index.value] == Num(b.highest)
  {
    if scores == [] then Best(None, 0.0)
    else
      var init := scores[..|scores| - 1];
      var previous := BestOf(init);
      assert previous.index.Some? ==> init[previous.index.value] == scores[previous.index.value];
      Step(previous, scores[|scores| - 1], |scores| - 1)
  }

  /** One iteration of the scan: candidate `i` with score `s` against the best so far. */
  function Step(b: Best, s: Score, i: nat): Best
  {
    if Exceeds(s, b.highest) then Best(Some(i), s.value) else b
  }

  lemma BestOfExtend(scores: seq<Score>, i: nat)
    requires UnitScores(scores) && i < |scores|
    ensures BestOf(scores[..i + 1]) == Step(BestOf(scores[..i]), scores[i], i)
  {
    assert scores[..i + 1][..i] == scores[..i];
  }

  /** Well-formed scores: NaN, or a number in [0, 1]. */
  predicate UnitScores(scores: seq<Score>)
  {
    forall j :: 0 <= j < |scores| ==> scores[j].Num? ==> 0.0 <= scores[j].value <= 1.0
  }

  /** No score is greater than the highest score the scan reports. */
  lemma {:induction false} BestOfIsMaximal(scores: seq<Score>)
    requires UnitScores(scores)
    ensures forall j :: 0 <= j < |scores| ==> !Exceeds(scores[j], BestOf(scores).highest)
  {
    if scores != [] {
      var init := scores[..|scores| - 1];
      BestOfIsMaximal(init);
      assert forall j :: 0 <= j < |init| ==> init[j] == scores[j];
    }
  }

  /**
    Ties keep the earlier candidate: every score before the best match is
    strictly less than it (or NaN).
  */
  lemma {:induction false} BestOfIsFirst(scores: seq<Score>)
    requires UnitScores(scores)
    ensures BestOf(scores).index.Some? ==>
      forall j :: 0 <= j < BestOf(scores).index.value ==> Below(scores[j], BestOf(scores).highest)
  {
    if scores != [] {
      var init := scores[..|scores| - 1];
      assert forall j :: 0 <= j < |init| ==> init[j] == scores[j];
      if BestOf(scores) == BestOf(init) {
        BestOfIsFirst(init);
      } else {
        BestOfIsMaximal(init);
      }
    }
  }

  /** The best match stays null exactly when no score exceeds 0. */
  lemma BestOfNone(scores: seq<Score>)
    requires UnitScores(scores)
    ensures BestOf(scores).index.None? <==> forall j :: 0 <= j < |scores| ==> !Exceeds(scores[j], 0.0)
  {
    BestOfIsMaximal(scores);
  }

  /** The composite scores of the candidates, in order. */
  function Scores(report: NewReport, candidates: seq<Report>, distance: Distance): (scores: seq<Score>)
    ensures |scores| == |candidates|
    ensures UnitScores(scores)
    ensures forall j :: 0 <= j < |candidates| ==> scores[j] == Similarity(report, candidates[j], distance)
  {
    seq(|candidates|, j requires 0 <= j < |candidates| => Similarity(report, candidates[j], distance))
  }

  /** `bestMatch` and `highestSimilarity` after the scoring loop. */
  function BestMatch(report: NewReport, candidates: seq<Report>, distance: Distance): Best
  {
    BestOf(Scores(report, candidates, distance))
  }

  /** The scoring loop over the candidate window. */
  method FindBestMatch(report: NewReport, candidates: seq<Report>, distance: Distance)
    returns (bestMatch: Option<nat>, highestSimilarity: real)
    ensures Best(bestMatch, highestSimilarity) == BestMatch(report, candidates, distance)
  {
    ghost var scores := Scores(report, candidates, distance);
    bestMatch := None;
    highestSimilarity := 0.0;
    for i := 0 to |candidates|
      invariant Best(bestMatch, highestSimilarity) == BestOf(scores[..i])
    {
      BestOfExtend(scores, i);
      var similarity := ScoreCandidate(report, candidates[i], distance);
      if Exceeds(similarity, highestSimilarity) {
        highestSimilarity := similarity.value;
        bestMatch := Some(i);
      }
    }
    assert scores[..|candidates|] == scores;
  }
}

=== FILE: text.dfy ===
/**
  String helpers shared by the duplicate detector and the case filter:
  `String.prototype.toLowerCase`, the `\s` class of JavaScript regular
  expressions, `split(/\s+/)` and `String.prototype.includes`.
*/
module Text {

  /** One character of `toLowerCase`; only the ASCII letters A-Z are folded. */
  function LowerChar(c: char): (d: char)
    ensures 'A' <= c <= 'Z' ==> 'a' <= d <= 'z' && d as int - c as int == 32
    ensures !('A' <= c <= 'Z') ==> d == c
  {
    if 'A' <= c <= 'Z' then (c as int + 32) as char else c
  }

  function Lower(s: string): (r: string)
    ensures |r| == |s|
    ensures forall i :: 0 <= i < |s| ==> r[i] == LowerChar(s[i])
  {
    seq(|s|, i requires 0 <= i < |s| => LowerChar(s[i]))
  }

  /** Lower-casing works character by character, so it distributes over concatenation. */
  lemma LowerAppend(a: string, b: string)
    ensures Lower(a + b) == Lower(a) + Lower(b)
  {
    assert forall i :: 0 <= i < |a + b| ==> Lower(a + b)[i] == (Lower(a) + Lower(b))[i];
  }

  /** Membership in the `\s` class of a JavaScript regular expression. */
  predicate IsWhitespace(c: char)
  {
    var n := c as int;
    n == 0x20 || (0x09 <= n <= 0x0D) || n == 0xA0 || n == 0x1680 ||
    (0x2000 <= n <= 0x200A) || n == 0x2028 || n == 0x2029 || n == 0x202F ||
    n == 0x205F || n == 0x3000 || n == 0xFEFF
  }

  predicate NoWhitespace(w: string)
  {
    forall i :: 0 <= i < |w| ==> !IsWhitespace(w[i])
  }

  /** Length of the run of non-whitespace characters that starts `s`. */
  function WordEnd(s: string): (n: nat)
    ensures n <= |s|
    ensures NoWhitespace(s[..n])
    ensures n < |s| ==> IsWhitespace(s[n])
  {
    if s == [] || IsWhitespace(s[0]) then 0 else 1 + WordEnd(s[1..])
  }

  /** The characters of `s` that are not whitespace, in order. */
  function Strip(s: string): (r: string)
    ensures |r| <= |s|
    ensures NoWhitespace(r)
  {
    if s == [] then []
    else (if IsWhitespace(s[0]) then [] else [s[0]]) + Strip(s[1..])
  }

  lemma {:induction false} StripAppend(a: string, b: string)
    ensures Strip(a + b) == Strip(a) + Strip(b)
  {
    if a == [] {
      assert a + b == b;
    } else {
      assert (a + b)[1..] == a[1..] + b;
      StripAppend(a[1..], b);
    }
  }

  lemma {:induction false} StripRun(w: string)
    requires NoWhitespace(w)
    ensures Strip(w) == w
  {
    if w != [] {
      StripRun(w[1..]);
    }
  }

  /** The words joined together. */
  function Concat(ws: seq<string>): string
  {
    if ws == [] then [] else ws[0] + Concat(ws[1..])
  }

  lemma {:induction false} ConcatAppend(a: seq<string>, b: seq<string>)
    ensures Concat(a + b) == Concat(a) + Concat(b)
  {
    if a == [] {
      assert a + b == b;
    } else {
      assert (a + b)[1..] == a[1..] + b;
      ConcatAppend(a[1..], b);
    }
  }

  /**
    The non-empty pieces of `s.split(/\s+/)`: the maximal runs of
    non-whitespace characters, in order. (`split` also yields an empty
    piece for leading or trailing whitespace; every caller here drops
    pieces of length at most 3, so those never matter.) Joined together,
    the words are `s` without its whitespace.
  */
  function Words(s: string): (ws: seq<string>)
    ensures forall i :: 0 <= i < |ws| ==> ws[i] != [] && NoWhitespace(ws[i])
    ensures Concat(ws) == Strip(s)
    decreases |s|
  {
    if s == [] then []
    else if IsWhitespace(s[0]) then Words(s[1..])
    else
      var n := WordEnd(s);
      StripAppend(s[..n], s[n..]);
      StripRun(s[..n]);
      assert s == s[..n] + s[n..];
      [s[..n]] + Words(s[n..])
  }

  /** A text that is one run of non-whitespace characters is one word. */
  lemma {:induction false} WordsOfRun(w: string)
    requires w != [] && NoWhitespace(w)
    ensures Words(w) == [w]
  {
    WordEndOfRun(w);
    assert w[..WordEnd(w)] == w;
    assert Words(w[WordEnd(w)..]) == [];
  }

  lemma {:induction false} WordEndOfRun(w: string)
    requires NoWhitespace(w)
    ensures WordEnd(w) == |w|
  {
    if w != [] {
      WordEndOfRun(w[1..]);
    }
  }

  lemma {:induction false} WordEndBeforeSpace(a: string, c: char, b: string)
    requires IsWhitespace(c)
    ensures WordEnd(a + [c] + b) == WordEnd(a)
    decreases |a|
  {
    var s := a + [c] + b;
    if a == [] {
      assert s[0] == c;
    } else if !IsWhitespace(a[0]) {
      assert s[1..] == a[1..] + [c] + b;
      WordEndBeforeSpace(a[1..], c, b);
    }
  }

  /**
    A whitespace character between two texts never joins or splits a word:
    the words of `a + [c] + b` are the words of `a` followed by those of `b`.
  */
  lemma {:induction false} WordsAroundSpace(a: string, c: char, b: string)
    requires IsWhitespace(c)
    ensures Words(a + [c] + b) == Words(a) + Words(b)
    decreases |a|
  {
    var s := a + [c] + b;
    if a == [] {
      assert s[0] == c && s[1..] == b;
    } else if IsWhitespace(a[0]) {
      assert s[1..] == a[1..] + [c] + b;
      WordsAroundSpace(a[1..], c, b);
    } else {
      var n := WordEnd(a);
      WordEndBeforeSpace(a, c, b);
      assert s[..n] == a[..n];
      assert s[n..] == a[n..] + [c] + b;
      WordsAroundSpace(a[n..], c, b);
    }
  }

  /**
    The three equations above determine the splitting: any function that
    gives no words for the empty text, one word for a run of non-whitespace
    characters and splits at every whitespace character is `Words`.
  */
  lemma {:induction false} WordsDetermined(f: string -> seq<string>, s: string)
    requires f([]) == []
    requires forall w :: w != [] && NoWhitespace(w) ==> f(w) == [w]
    requires forall a, c, b :: IsWhitespace(c) ==> f(a + [c] + b) == f(a) + f(b)
    ensures f(s) == Words(s)
    decreases |s|
  {
    if s == [] {
    } else if NoWhitespace(s) {
      WordsOfRun(s);
    } else {
      var k :| 0 <= k < |s| && IsWhitespace(s[k]);
      var before, c, after := s[..k], s[k], s[k + 1..];
      assert s == before + [c] + after;
      assert f(before + [c] + after) == f(before) + f(after);
      WordsDetermined(f, before);
      WordsDetermined(f, after);
      WordsAroundSpace(before, c, after);
    }
  }

  /** `haystack.includes(needle)`: `needle` occurs at some offset of `haystack`. */
  function Contains(haystack: string, needle: string): (r: bool)
    ensures needle <= haystack ==> r
    ensures r ==> |needle| <= |haystack|
    decreases |haystack|
  {
    needle <= haystack || (haystack != [] && Contains(haystack[1..], needle))
  }

  predicate OccursAt(haystack: string, needle: string, i: int)
  {
    0 <= i && i + |needle| <= |haystack| && haystack[i..i + |needle|] == needle
  }

  /** An occurrence at offset `i` is found by `includes`. */
  lemma {:induction false} OccursContains(haystack: string, needle: string, i: int)
    requires OccursAt(haystack, needle, i)
    ensures Contains(haystack, needle)
    decreases i
  {
    if i > 0 {
      assert haystack[1..][i - 1..i - 1 + |needle|] == haystack[i..i + |needle|];
      OccursContains(haystack[1..], needle, i - 1);
    } else {
      assert haystack[..|needle|] == needle;
    }
  }

  /** What `includes` finds occurs at some offset. */
  lemma {:induction false} ContainsOccurs(haystack: string, needle: string)
    requires Contains(haystack, needle)
    ensures exists i :: OccursAt(haystack, needle, i)
    decreases |haystack|
  {
    if needle <= haystack {
      assert OccursAt(haystack, needle, 0);
    } else {
      ContainsOccurs(haystack[1..], needle);
      var i :| OccursAt(haystack[1..], needle, i);
      assert haystack[1..][i..i + |needle|] == haystack[i + 1..i + 1 + |needle|];
      assert OccursAt(haystack, needle, i + 1);
    }
  }

  lemma ContainsIffOccurs(haystack: string, needle: string)
    ensures Contains(haystack, needle) <==> exists i :: OccursAt(haystack, needle, i)
  {
    forall i | OccursAt(haystack, needle, i)
      ensures Contains(haystack, needle)
    {
      OccursContains(haystack, needle, i);
    }
    if Contains(haystack, needle) {
      ContainsOccurs(haystack, needle);
    }
  }
}
